=== FILE: README.md ===
# slurmvision in Dafny

A model of the core of slurmvision, a terminal dashboard for the SLURM batch
scheduler. The model has two parts.

**The query layer** (`Inspector`, in `Tools`):
- it builds the argv lists for `squeue`, `sinfo` and `scancel`;
- it parses their tabular output into records keyed by the header line;
- it toggles the "my jobs" and "running only" filters in the `squeue` options;
- it validates and defaults the three format options at construction.

**The dashboard** (`Tui`, in `Dash`), with the widget toolkit removed. Its state
is a record of what the widgets show:
- the current view, the search text and the selected job ids;
- the number the selection counter shows, and the two filter check boxes;
- the header, the displayed rows and the focused row;
- the overlay and the focused pane.

Each callback is a pure transition on that record: key dispatch, view
switching, search, selecting, clearing and cancelling.

Modules:
- `Wrappers`: `Option` and `Result`.
- `Text`: the parts of Python's string semantics the code relies on.
  - `str.split("\n")` and `str.split()` with Python's whitespace set;
  - substring `in`;
  - decimal rendering of counts.
- `OrderedDict`: Python's insertion-ordered dict, as a sequence of pairs with
  distinct keys.
  - Argument order on the command line follows insertion order.
  - A dict built from `zip` keeps each key's first position and last value.
- `Tools`: the query layer.
- `Dash`: the dashboard.
- `Scenarios`: two worked examples of the parse-and-filter pipeline.

Exceptions the Python code raises become `Result` failures, one `Error`
constructor per cause: `IndexError`, `KeyError`, `AssertionError` and
`AttributeError`.

The following are parameters rather than calls:
- command output, already decoded to a string;
- the user name (`os.environ["USER"]` in the source);
- the stderr that `scancel` writes for each job id.

The iteration order of the selection set is left open: the cancel method picks
each next id with `:|`.

**Trailing blank line.** `split("\n")[:-1]` drops only the piece after the
last newline, so a blank line before the final newline becomes an empty
record, and `build_squeue_list` then raises `KeyError` on its first header
column. `Scenarios.DoubleNewlineFails` states this for a two-job listing that
ends in `"\n\n"`. `Scenarios.SearchFindsSecondJob` gives the outcome for the
same listing ending in one newline.

**Padded columns.** `squeue -O` and `sinfo -o` pad their columns with spaces.
`Tools.ParsePadded` covers such output: any whitespace other than newlines
may surround and separate the words of a line.

**Detail format.** The line after the detail-format check reads an attribute
and does not store it. See Findings.

## Model

| member | source | states |
|---|---|---|
| Text.SplitOn | slurmvision/slurm/tools.py:140 | `split(sep)` yields one piece more than there are separators, no piece contains the separator, and joining the pieces with the separator gives back the input |
| Text.SplitJoin | slurmvision/slurm/tools.py:140 | splitting a join of separator-free pieces returns exactly those pieces |
| Text.Tokens | slurmvision/slurm/tools.py:141-144 | `split()` returns words `r` such that the line is `r` with whitespace around and between them, at least one whitespace character between neighbours (`WordsOf`). The tokens are whitespace-free and non-empty, and there are none exactly when the line is all whitespace |
| Text.TokensIff | slurmvision/slurm/tools.py:141-144 | `split()` of a line gives exactly the words `ws` iff the line is `ws` with whitespace around and between them: the tokens are determined by that description |
| Text.TokensOfSpaced | slurmvision/slurm/tools.py:141-144 | tokenising words joined by single spaces returns the same words |
| Text.Contains | slurmvision/tui/slurmdash.py:381 | `filter in value` holds iff the filter occurs at some offset of the value |
| Text.EmptyOccursEverywhere | slurmvision/tui/slurmdash.py:381 | the empty search text occurs in every string, so it matches every cell |
| Text.NatToString | slurmvision/tui/slurmdash.py:277 | a count prints as at least one decimal digit with no leading zero |
| Text.NatToStringRoundTrip | slurmvision/tui/slurmdash.py:277 | reading the printed digits back gives the count |
| Text.NatToStringInjective | slurmvision/tui/slurmdash.py:277 | distinct counts print differently |
| OrderedDict.Set | slurmvision/slurm/tools.py:112 | `d[k] = v` binds k to v and keeps every other binding. An existing key keeps its position; a new key goes last |
| OrderedDict.Delete | slurmvision/slurm/tools.py:114 | `del d[k]` removes exactly that key, keeps every other binding and the order of the remaining keys, and shrinks the dict by one |
| OrderedDict.DeleteUndoesAdd | slurmvision/slurm/tools.py:112-114 | adding an absent key and then deleting it restores the dict exactly |
| OrderedDict.Zip | slurmvision/slurm/tools.py:145 | `{h: t for h, t in zip(hs, ts)}` has a key iff it is among the first min(len hs, len ts) header names |
| OrderedDict.ZipGet | slurmvision/slurm/tools.py:145 | a key's value is the token paired with its last occurrence in the truncated header |
| OrderedDict.ZipKeys | slurmvision/slurm/tools.py:145 | with distinct header names the keys are the truncated header, in order |
| Tools.WidthText | slurmvision/slurm/tools.py:8 | the column width is written as 256 |
| Tools.DefaultSqueueFormatText | slurmvision/slurm/tools.py:78-81 | the default job format is `-O JobId,UserName,Name:256,STATE,ReasonList,TimeUsed` |
| Tools.DefaultDetailFields | slurmvision/slurm/tools.py:92-95 | the default detail format lists all fifteen detail fields in order, each `:256` |
| Tools.OptionTokens | slurmvision/slurm/tools.py:204-206 | each option pair contributes its flag and then its argument, in insertion order |
| Tools.BuildCommand | slurmvision/slurm/tools.py:203-209 | the argv is the base command, then every option pair in order, then the first format pair. It fails exactly when the format dict is empty |
| Tools.CommandRoundTrip | slurmvision/slurm/tools.py:203-209 | reading the argv after the base command back in pairs gives the options in insertion order followed by the format pair, so building a command loses nothing |
| Tools.OutputLines | slurmvision/slurm/tools.py:140 | `split("\n")[:-1]` has one line per newline, no line contains a newline, and the lines joined by newlines, then a newline-free tail, give back the output |
| Tools.OutputLinesOfJoin | slurmvision/slurm/tools.py:140 | newline-free lines joined by newlines, followed by any newline-free tail, split back into exactly those lines |
| Tools.ParseTable | slurmvision/slurm/tools.py:140-147 | parsing fails exactly when the output has no newline. Otherwise the header is the first line's tokens, and there is one record per later line, blank lines included, pairing the header with that line's tokens by position. Every record key is a header name |
| Tools.ParseSqueue | slurmvision/slurm/tools.py:124-147 | jobs wrap the parsed records one for one, in output order, under the parsed header |
| Tools.ParseSinfo | slurmvision/slurm/tools.py:150-174 | the sinfo parser yields the same header and records as the squeue parser |
| Tools.ParseRender | slurmvision/slurm/tools.py:140-147 | parsing output that separates the words of each row by single spaces yields the header and one zipped record per row |
| Tools.ParsePadded | slurmvision/slurm/tools.py:140-147 | for output whose lines hold words with any non-newline whitespace around and between them, the header is the first line's words and each record pairs it with one later line's words by position |
| Tools.ParseRoundTrip | slurmvision/slurm/tools.py:140-147 | for distinct header names and full rows, each parsed record has exactly the header as keys and maps the j-th column to the row's j-th word |
| Tools.Toggle | slurmvision/slurm/tools.py:109-121 | the flag's presence flips; an absent flag is appended with the value; a present one is removed and the remaining flags keep their order; other flags keep their values |
| Tools.ToggleTwiceFromAbsent | slurmvision/slurm/tools.py:109-121 | toggling an absent flag twice restores the options exactly |
| Tools.ToggleTwiceFromPresent | slurmvision/slurm/tools.py:109-121 | toggling a present flag twice keeps the other options in order and moves the flag to the end, bound to the toggle's value |
| Tools.FirstBadFormat | slurmvision/slurm/tools.py:78-98 | no format is reported iff every supplied format has exactly one pair. A reported format is one that failed its own size check, and every check before it passed, in the order squeue, sinfo, detail |
| Tools.InfoCommand | slurmvision/slurm/tools.py:228-230 | the sinfo argv is `sinfo`, the sinfo options in order, then the sinfo format pair |
| Tools.JobsCommand | slurmvision/slurm/tools.py:216-218 | the squeue argv is `squeue`, the squeue options in order, then the squeue format pair |
| Tools.RefreshInfo | slurmvision/slurm/tools.py:223-233 | refreshing succeeds iff the output has a newline, stores exactly the parse of the output, and changes nothing else |
| Tools.RefreshJobs | slurmvision/slurm/tools.py:211-221 | refreshing succeeds iff the output has a newline, stores exactly the parse of the output, and changes nothing else |
| Tools.NewInspectorAsWritten | slurmvision/slurm/tools.py:92-98 | as written, supplying any detail format makes construction fail; without one it behaves like the corrected constructor |
| Tools.NewInspector | slurmvision/slurm/tools.py:58-104 | construction succeeds iff every supplied format has size one and the sinfo output has a newline. A bad format fails with the first failing check. On success: omitted options are empty; omitted formats take the defaults; the user is stored; the job snapshot is empty; the sinfo snapshot is the parse of the output |
| Tools.DetailFormatNeverAccepted | slurmvision/slurm/tools.py:96-98 | a well-sized detail format is refused by the as-written constructor and stored by the corrected one |
| Tools.ToggleUserFilter | slurmvision/slurm/tools.py:109-114 | `-u` is toggled with the stored user as its value: an absent `-u` is appended after the existing options, a present one is removed with the others kept in order. Other options keep their values, and no other field changes |
| Tools.ToggleRunningFilter | slurmvision/slurm/tools.py:116-121 | `--state` is toggled with `RUNNING` as its value: an absent `--state` is appended after the existing options, a present one is removed with the others kept in order. Other options keep their values, and no other field changes |
| Tools.DetailCommand | slurmvision/slurm/tools.py:246-248 | the detail argv is `squeue -j <id>` followed by the detail format pair |
| Tools.JobDetails | slurmvision/slurm/tools.py:249-252 | job details fail with no header line when the output has no newline, and with no rows when it has one. They succeed iff there are at least two lines, and then give the first parsed job |
| Tools.CancelCommand | slurmvision/slurm/tools.py:269 | cancelling runs `scancel` with the job id as its only argument |
| Dash.CounterText | slurmvision/tui/slurmdash.py:276-278 | the footer counter reads `[`, the decimal digits of the count, then `] Selected`, and those digits read back as the count |
| Dash.CounterTextInjective | slurmvision/tui/slurmdash.py:276-278 | the counter text determines the count it shows, so the state can record the count in place of the text |
| Dash.Cells | slurmvision/tui/slurmdash.py:385-392 | the cells are the record's values for the header columns, in order. They fail, naming a missing header column, exactly when some column is absent |
| Dash.AnyContains | slurmvision/tui/slurmdash.py:380-382 | a row matches iff the search text occurs in one of its cells |
| Dash.ShownJobs | slurmvision/tui/slurmdash.py:379-382 | reference filter: an order-keeping subsequence of the jobs that holds only jobs matching the search text, and every job that matches |
| Dash.ShownJobsCount | slurmvision/tui/slurmdash.py:379-382 | the filter keeps every copy of a matching job and no copy of another: each job occurs as often as in the snapshot if it matches, else not at all |
| Dash.AnyContainsShows | slurmvision/tui/slurmdash.py:380-382 | matching on the cells agrees with the reference filter |
| Dash.JobRows | slurmvision/tui/slurmdash.py:379-405 | one job contributes no row when hidden and one row when shown. It fails on a missing column, or on a missing `JOBID` for a shown job |
| Dash.BuildSqueueList | slurmvision/tui/slurmdash.py:367-406 | the list succeeds iff every job has the header columns and every shown job has a `JOBID`. It then has one row per shown job, in order, carrying the job's id and cells, marked iff the id is selected |
| Dash.EmptyFilterShowsAll | slurmvision/tui/slurmdash.py:380-382 | with an empty search text and a non-empty header, every complete job is shown |
| Dash.EmptyHeaderShowsNone | slurmvision/tui/slurmdash.py:380-382 | with no header columns `any([])` is false, so no job is shown |
| Dash.BuildSinfoList | slurmvision/tui/slurmdash.py:408-433 | the node list succeeds iff every record has the header columns. It then has one row per record, in order, with that record's cells |
| Dash.PlaceRows | slurmvision/tui/slurmdash.py:449-457 | only the rows and focus change. Focus stays in bounds: it is the old focus modulo the new length, or the start when nothing was shown |
| Dash.DrawBody | slurmvision/tui/slurmdash.py:443-457 | redrawing succeeds iff every row of the current view can be built. Then the rows are the view's rows (`Drawn`): in the job view one row per shown job, in order, with its id, cells and mark; in the node view one row per sinfo record with its cells. Focus is the old focus wrapped into the new length, or the start; only rows and focus change |
| Dash.SetView | slurmvision/tui/slurmdash.py:123-126 | switching view succeeds iff the new view's rows can be built. It sets the view and the matching header, draws the new view's rows with the old focus wrapped to the new length (0 when the list was empty), and changes nothing else |
| Dash.SetFilter | slurmvision/tui/slurmdash.py:289-301 | a new search text succeeds iff the view's rows can be built under it. It is stored, the rows drawn are the view's rows under it, the focus is the old focus wrapped to the new length (0 when the list was empty), and only the text, rows and focus change |
| Dash.ToggleId | slurmvision/tui/slurmdash.py:479-490 | an id's membership flips and no other id changes |
| Dash.ToggleIdTwice | slurmvision/tui/slurmdash.py:479-490 | toggling an id twice restores the selection |
| Dash.ToggleSelected | slurmvision/tui/slurmdash.py:466-498 | on a job row: the id's selection flips, the counter shows the new size, only that row's mark changes, and focus advances cyclically. With no job row focused nothing changes. Only the selection, counter, rows and focus ever change, and consistency is preserved |
| Dash.ClearSelection | slurmvision/tui/slurmdash.py:280-287 | clearing succeeds iff the view's rows can be built. It empties the selection, makes the counter read `[0] Selected`, closes the prompt and draws the view's rows for the empty selection, so no row is marked; the focus is the old focus wrapped to the new length. Nothing else changes, and the state stays consistent |
| Tools.CancelSucceeded | slurmvision/tui/slurmdash.py:272 | a cancel counts as failed exactly when `scancel` wrote something to stderr, whatever its exit status |
| Dash.CancelOne | slurmvision/tui/slurmdash.py:271-278 | an empty stderr drops the id and resyncs the counter; a non-empty one shows it in an error box |
| Dash.CancelSelected | slurmvision/tui/slurmdash.py:261-278 | every id selected at the start is tried exactly once. Afterwards the selection is exactly the ids whose cancel wrote to stderr. The overlay shows the last failure. Only the selection, counter and overlay change, and a counter in sync stays in sync |
| Dash.ToggleMyJobs | slurmvision/tui/slurmdash.py:137-138 | the check box flips together with the user filter, so box and option stay in sync; nothing else in the dashboard changes |
| Dash.ToggleRunningJobs | slurmvision/tui/slurmdash.py:140-141 | the check box flips together with the running filter, so box and option stay in sync; nothing else in the dashboard changes |
| Dash.Act | slurmvision/tui/slurmdash.py:78-103 | each key that keeps the view does its action: quit stops the loop, the toggles flip box and filter, clear and search open in the job view, cancel opens with the selection size in the job view when something is selected, tab focuses the list, help opens its box, other keys do nothing. A prompt or search opens only in those cases; only the overlay, pane, check boxes, filters or running flag change |
| Dash.Dispatch | slurmvision/tui/slurmdash.py:78-103 | each command does its action as for `Act`. `j` and `i` are exactly `SetView` of the job or node view: they succeed iff the new view's rows can be built, and then draw that view's header and rows. Only view switching can fail. No command changes the selection, and consistency and filter sync are preserved |
| Dash.KeyCommand | slurmvision/tui/slurmdash.py:78-103 | each command is bound to exactly its keys, both cases of a letter alike, and every unbound key is ignored |
| Dash.HandleKey | slurmvision/tui/slurmdash.py:78-103 | the full key table, both letter cases alike: q, j, i, m, r, c, `/`, backspace, tab and h each do their action, and every other key that reaches the dashboard's fallback handler leaves it unchanged |
| Dash.Dismiss | slurmvision/tui/slurmdash.py:128-129 | returning to the main frame closes the overlay and changes nothing else |
| Dash.PromptThenDismiss | slurmvision/tui/slurmdash.py:90-117 | opening a prompt or help from the main frame and answering "No" leaves the dashboard exactly as it was |
| Dash.InitDash | slurmvision/tui/slurmdash.py:53-65 | start-up succeeds iff the job fetch parses and its list can be built with an empty search. It stores the fetched snapshot and shows the job view with its header, every job the empty search shows, focus at the start, an empty selection, unticked boxes and no overlay. The boxes agree with the options iff neither filter was preset |
| Scenarios.SearchFindsSecondJob | slurmvision/tui/slurmdash.py:367-406 | the listing `101 alice`, `102 bob` parses to two jobs, and searching `bob` shows only job 102, unmarked |
| Scenarios.DoubleNewlineFails | slurmvision/slurm/tools.py:140-147 | the same listing followed by a blank line parses to three records, the last with no keys, and the job list cannot be built |
| Scenarios.FilterPicksSecond | slurmvision/tui/slurmdash.py:367-406 | for any two well-formed rows, a search matching only the second lists exactly that job |
| Scenarios.BlankLineBreaksList | slurmvision/slurm/tools.py:140-147 | a blank line after the rows becomes an extra record with no keys, and the job list then fails |

## Left out

- Running the commands: `subprocess.run`, UTF-8 decoding and exit statuses are not modelled. Each output or stderr is a parameter.
- `SlurmThread`, `sleep`, the stop `Event` and the alarm-driven `update_top` loop are not modelled. They are concurrency and timing; a poll is `RefreshJobs` followed by `DrawBody`.
- `polling_interval` is not stored: it only paces the polling thread and the redraw alarm.
- `os.environ["USER"]` becomes the `user` parameter of the constructor.
- `Job.__str__` (JSON rendering) and the unused `_valid_fields` are not modelled.
- `Tui._force_refresh` is not modelled because nothing calls it.
- Widget construction and layout are not modelled: palettes, box styles, paddings, the header's column widgets and the help and prompt texts. Overlays are reduced to which box is open.
- `draw_header` is modelled only as the header stored by `SetView`.
- `_enter_search`'s column focus is reduced to the footer pane.
- Key routing to the focused widget is not modelled: keys typed while the search box has focus go to its `Edit` widget and `update_filter_str` (modelled as `SetFilter`), never to `_handle_input`, so `HandleKey` covers only keys no widget consumed and no transition reads `pane`.
- `Inspector.squeue_header` and `sinfo_header` start as `None` in the source. The model starts them as empty header lists, since nothing reads them before the first refresh.
- A list with no focused row (`focus` of `None`) is modelled as focus 0, which the source substitutes anyway.
- `NewInspector`: models the corrected constructor. The as-written behaviour is `NewInspectorAsWritten`.
- `Dash.CancelSelected`: cancels are tried in an order the method chooses freely, since Python's set iteration order is unspecified.
- The counter widget's text is recorded as the count it shows; `Dash.CounterText` renders it.
- `Dash.ToggleSelected`: the source toggles the activated row. The model toggles the focused row, which is the one the keyboard activates.
- widgets.py, utils.py, the command-line entry point and setup.py are not part of this model.

## Findings

| source | as written | input that shows it | evidently intended | confidence | as-written member | corrected member |
|---|---|---|---|---|---|---|
| slurmvision/slurm/tools.py:96-98 | a supplied `detail_formopts` passes the size check, but the next statement only reads `self.detail_formopts`, which was never assigned, so construction raises `AttributeError` | `Inspector(detail_formopts={"-O": "JobId"})` | store the supplied dict, as the squeue and sinfo branches do | not executed | Tools.NewInspectorAsWritten (with Tools.DetailFormatNeverAccepted) | Tools.NewInspector |

=== FILE: dash.dfy ===
/**
 * The dashboard (`slurmvision/tui/slurmdash.py`) with the widget toolkit
 * stripped away: a record of what the widgets show (view, search text,
 * selected job ids, the number on the selection counter, the two filter check boxes,
 * the header, the displayed rows and the focused row, the overlay and the
 * focused pane) and pure transitions for the callbacks that change it.
 */
module Dash {
  import opened Wrappers
  import opened Text
  import opened OrderedDict
  import opened Tools

  datatype View = SqueueView | SinfoView

  /** A displayed line: a job row carries its id and whether it is highlighted as selected. */
  datatype Row =
    | JobRow(jobId: string, cells: seq<string>, marked: bool)
    | InfoRow(cells: seq<string>)

  /** What is drawn over the main frame. */
  datatype Overlay = Top | HelpBox | ErrorBox(message: string) | ConfirmCancel(count: nat) | ConfirmClear

  datatype Pane = BodyPane | FooterPane

  datatype Dash = Dash(
    insp: Inspector,
    view: View,
    filter: string,
    selected: set<string>,
    counter: nat,
    myJobsBox: bool,
    runningBox: bool,
    header: seq<string>,
    body: seq<Row>,
    focus: nat,
    overlay: Overlay,
    pane: Pane,
    running: bool)

  /** The footer's selection counter, `f"[{n}] Selected"`. */
  function CounterText(n: nat): (t: string)
    ensures |t| >= 12 && t[0] == '[' && t[|t| - 10..] == "] Selected"
    ensures forall i :: 1 <= i < |t| - 10 ==> IsDigit(t[i])
    ensures StringToNat(t[1..|t| - 10]) == n
  {
    NatToStringRoundTrip(n);
    var t := "[" + NatToString(n) + "] Selected";
    assert t[1..|t| - 10] == NatToString(n);
    t
  }

  /**
   * The counter text determines the count it shows, so the state records the
   * count and the footer shows `CounterText(counter)`.
   */
  lemma CounterTextInjective(a: nat, b: nat)
    ensures CounterText(a) == CounterText(b) ==> a == b
  {
    if CounterText(a) == CounterText(b) {
      var ca, cb := CounterText(a), CounterText(b);
      assert ca[1..|ca| - 10] == NatToString(a);
      assert cb[1..|cb| - 10] == NatToString(b);
      NatToStringInjective(a, b);
    }
  }

  ghost predicate CounterInSync(st: Dash) {
    st.counter == |st.selected|
  }

  /** The focused row exists, or the list is empty and focus is at its start. */
  ghost predicate FocusInBounds(st: Dash) {
    if |st.body| == 0 then st.focus == 0 else st.focus < |st.body|
  }

  ghost predicate Consistent(st: Dash) {
    CounterInSync(st) && FocusInBounds(st)
  }

  /** Each check box is ticked iff its option is present in the squeue options. */
  ghost predicate FiltersInSync(st: Dash) {
    && (st.myJobsBox <==> HasKey(st.insp.squeueGetopts, "-u"))
    && (st.runningBox <==> HasKey(st.insp.squeueGetopts, "--state"))
  }

  // ---------------------------------------------------------------------------
  // The job filter (`build_squeue_list`) and its reference definition.
  // ---------------------------------------------------------------------------

  ghost predicate HasColumns(rec: Record, header: seq<string>) {
    forall i :: 0 <= i < |header| ==> HasKey(rec, header[i])
  }

  /** `[rec[h] for h in header]`, failing on the first missing column. */
  function Cells(rec: Record, header: seq<string>): (r: Result<seq<string>, Error>)
    ensures r.Success? <==> HasColumns(rec, header)
    ensures r.Success? ==>
              |r.value| == |header| && forall i :: 0 <= i < |header| ==> Get(rec, header[i]) == Some(r.value[i])
    ensures r.Failure? ==> r.error.MissingColumn? && r.error.key in header && !HasKey(rec, r.error.key)
  {
    if |header| == 0 then
      Success([])
    else
      match Get(rec, header[0])
      case None => Failure(MissingColumn(header[0]))
      case Some(v) =>
        var rest :- Cells(rec, header[1..]);
        assert forall i :: 1 <= i < |header| ==> header[i] == header[1..][i - 1];
        Success([v] + rest)
  }

  /** `any(filter in c for c in cells)`. */
  function AnyContains(cells: seq<string>, filter: string): (b: bool)
    ensures b <==> exists i :: 0 <= i < |cells| && OccursIn(filter, cells[i])
  {
    if |cells| == 0 then false
    else
      assert forall i :: 1 <= i < |cells| ==> cells[i] == cells[1..][i - 1];
      Contains(cells[0], filter) || AnyContains(cells[1..], filter)
  }

  /** A job is shown iff the search text occurs in its value for some header column. */
  ghost predicate Shows(rec: Record, header: seq<string>, filter: string) {
    exists i :: 0 <= i < |header| && Get(rec, header[i]).Some? && OccursIn(filter, Get(rec, header[i]).value)
  }

  /** `a` is `b` with some elements left out, order kept. */
  ghost predicate IsSubsequence<T>(a: seq<T>, b: seq<T>)
    decreases |b|
  {
    || |a| == 0
    || (|b| > 0 && ((a[0] == b[0] && IsSubsequence(a[1..], b[1..])) || IsSubsequence(a, b[1..])))
  }

  /** The jobs the list shows, by the definition above: a filtered copy of the snapshot. */
  ghost function ShownJobs(jobs: seq<Job>, header: seq<string>, filter: string): (r: seq<Job>)
    ensures IsSubsequence(r, jobs)
    ensures forall j :: j in r ==> Shows(j.attrs, header, filter)
    ensures forall i :: 0 <= i < |jobs| && Shows(jobs[i].attrs, header, filter) ==> jobs[i] in r
  {
    if |jobs| == 0 then
      []
    else
      var rest := ShownJobs(jobs[1..], header, filter);
      assert forall i :: 1 <= i < |jobs| ==> jobs[i] == jobs[1..][i - 1];
      if Shows(jobs[0].attrs, header, filter) then
        assert ([jobs[0]] + rest)[1..] == rest;
        [jobs[0]] + rest
      else
        rest
  }

  /**
   * The filter keeps every copy of a shown job and no copy of a hidden one:
   * together with the order-keeping subsequence this pins the shown jobs down.
   */
  lemma {:induction false} ShownJobsCount(jobs: seq<Job>, header: seq<string>, filter: string, j: Job)
    ensures multiset(ShownJobs(jobs, header, filter))[j]
            == if Shows(j.attrs, header, filter) then multiset(jobs)[j] else 0
  {
    if |jobs| > 0 {
      ShownJobsCount(jobs[1..], header, filter, j);
      ShownJobsCons(jobs, header, filter);
      assert jobs == [jobs[0]] + jobs[1..];
    }
  }

  /** Every job has every header column, and every shown job has a `JOBID`. */
  ghost predicate ListBuildable(jobs: seq<Job>, header: seq<string>, filter: string) {
    forall i :: 0 <= i < |jobs| ==>
      && HasColumns(jobs[i].attrs, header)
      && (Shows(jobs[i].attrs, header, filter) ==> HasKey(jobs[i].attrs, "JOBID"))
  }

  /** The row drawn for a shown job: its id, its cells, and its selection mark. */
  ghost predicate IsRowFor(row: Row, job: Job, header: seq<string>, selected: set<string>) {
    && row.JobRow?
    && Get(job.attrs, "JOBID") == Some(row.jobId)
    && |row.cells| == |header|
    && (forall c :: 0 <= c < |header| ==> Get(job.attrs, header[c]) == Some(row.cells[c]))
    && (row.marked <==> row.jobId in selected)
  }

  /** The cells decide the match exactly as the reference predicate does. */
  lemma AnyContainsShows(rec: Record, header: seq<string>, cells: seq<string>, filter: string)
    requires Cells(rec, header) == Success(cells)
    ensures AnyContains(cells, filter) <==> Shows(rec, header, filter)
  {
    if AnyContains(cells, filter) {
      var i :| 0 <= i < |cells| && OccursIn(filter, cells[i]);
      assert Get(rec, header[i]) == Some(cells[i]);
    }
    if Shows(rec, header, filter) {
      var i :| 0 <= i < |header| && Get(rec, header[i]).Some? && OccursIn(filter, Get(rec, header[i]).value);
      assert OccursIn(filter, cells[i]);
    }
  }

  /** The rows one job contributes: none when it is not shown, else its row. */
  function JobRows(job: Job, header: seq<string>, filter: string, selected: set<string>)
    : (r: Result<seq<Row>, Error>)
    ensures r.Success? <==>
              HasColumns(job.attrs, header) && (Shows(job.attrs, header, filter) ==> HasKey(job.attrs, "JOBID"))
    ensures r.Success? && !Shows(job.attrs, header, filter) ==> r.value == []
    ensures r.Success? && Shows(job.attrs, header, filter) ==>
              |r.value| == 1 && IsRowFor(r.value[0], job, header, selected)
    ensures r.Failure? ==> r.error.MissingColumn?
  {
    var cells :- Cells(job.attrs, header);
    AnyContainsShows(job.attrs, header, cells, filter);
    if !AnyContains(cells, filter) then Success([])
    else match Get(job.attrs, "JOBID")
      case None => Failure(MissingColumn("JOBID"))
      case Some(id) => Success([JobRow(id, cells, id in selected)])
  }

  /**
   * `build_squeue_list`: one row per shown job, in snapshot order, failing with
   * a missing-column error when a job lacks a header column or a shown job
   * lacks `JOBID`.
   */
  function BuildSqueueList(jobs: seq<Job>, header: seq<string>, filter: string, selected: set<string>)
    : (r: Result<seq<Row>, Error>)
    ensures r.Success? <==> ListBuildable(jobs, header, filter)
    ensures r.Success? ==>
              && |r.value| == |ShownJobs(jobs, header, filter)|
              && forall k :: 0 <= k < |r.value| ==>
                   IsRowFor(r.value[k], ShownJobs(jobs, header, filter)[k], header, selected)
    ensures r.Failure? ==> r.error.MissingColumn?
  {
    if |jobs| == 0 then
      Success([])
    else
      ListBuildableCons(jobs, header, filter);
      var first :- JobRows(jobs[0], header, filter, selected);
      var rest :- BuildSqueueList(jobs[1..], header, filter, selected);
      ShownJobsCons(jobs, header, filter);
      RowsAppend(first, rest, if Shows(jobs[0].attrs, header, filter) then [jobs[0]] else [],
                 ShownJobs(jobs[1..], header, filter), header, selected);
      Success(first + rest)
  }

  lemma ListBuildableCons(jobs: seq<Job>, header: seq<string>, filter: string)
    requires |jobs| > 0
    ensures ListBuildable(jobs, header, filter) <==>
              && HasColumns(jobs[0].attrs, header)
              && (Shows(jobs[0].attrs, header, filter) ==> HasKey(jobs[0].attrs, "JOBID"))
              && ListBuildable(jobs[1..], header, filter)
  {
    assert forall i :: 1 <= i < |jobs| ==> jobs[i] == jobs[1..][i - 1];
  }

  lemma ShownJobsCons(jobs: seq<Job>, header: seq<string>, filter: string)
    requires |jobs| > 0
    ensures ShownJobs(jobs, header, filter)
            == (if Shows(jobs[0].attrs, header, filter) then [jobs[0]] else []) + ShownJobs(jobs[1..], header, filter)
  {
  }

  lemma RowsAppend(rows1: seq<Row>, rows2: seq<Row>, jobs1: seq<Job>, jobs2: seq<Job>,
                   header: seq<string>, selected: set<string>)
    requires |rows1| == |jobs1| && |rows2| == |jobs2|
    requires forall k :: 0 <= k < |rows1| ==> IsRowFor(rows1[k], jobs1[k], header, selected)
    requires forall k :: 0 <= k < |rows2| ==> IsRowFor(rows2[k], jobs2[k], header, selected)
    ensures forall k :: 0 <= k < |rows1 + rows2| ==> IsRowFor((rows1 + rows2)[k], (jobs1 + jobs2)[k], header, selected)
  {
    forall k | 0 <= k < |rows1 + rows2|
      ensures IsRowFor((rows1 + rows2)[k], (jobs1 + jobs2)[k], header, selected)
    {
      if k >= |rows1| {
        assert (rows1 + rows2)[k] == rows2[k - |rows1|];
        assert (jobs1 + jobs2)[k] == jobs2[k - |rows1|];
      }
    }
  }

  /** With an empty search text every job is shown, provided the header has a column. */
  lemma {:induction false} EmptyFilterShowsAll(jobs: seq<Job>, header: seq<string>)
    requires |header| > 0
    requires forall i :: 0 <= i < |jobs| ==> HasColumns(jobs[i].attrs, header)
    ensures ShownJobs(jobs, header, "") == jobs
  {
    if |jobs| > 0 {
      var v := Get(jobs[0].attrs, header[0]).value;
      assert OccursAt("", v, 0);
      assert Shows(jobs[0].attrs, header, "");
      assert forall i :: 1 <= i < |jobs| ==> jobs[i] == jobs[1..][i - 1];
      EmptyFilterShowsAll(jobs[1..], header);
    }
  }

  /** With no header column nothing is shown, whatever the search text. */
  lemma {:induction false} EmptyHeaderShowsNone(jobs: seq<Job>, filter: string)
    ensures ShownJobs(jobs, [], filter) == []
  {
    if |jobs| > 0 {
      EmptyHeaderShowsNone(jobs[1..], filter);
    }
  }

  /** `build_sinfo_list`: one row per sinfo record, in order, failing on a missing column. */
  function BuildSinfoList(infos: seq<Record>, header: seq<string>): (r: Result<seq<Row>, Error>)
    ensures r.Success? <==> forall i :: 0 <= i < |infos| ==> HasColumns(infos[i], header)
    ensures r.Success? ==>
              && |r.value| == |infos|
              && forall k :: 0 <= k < |infos| ==>
                   r.value[k].InfoRow? && Cells(infos[k], header) == Success(r.value[k].cells)
  {
    if |infos| == 0 then
      Success([])
    else
      assert forall i :: 1 <= i < |infos| ==> infos[i] == infos[1..][i - 1];
      var cells :- Cells(infos[0], header);
      var rest :- BuildSinfoList(infos[1..], header);
      Success([InfoRow(cells)] + rest)
  }

  // ---------------------------------------------------------------------------
  // Redrawing (`draw_body`, `draw_header`, `update_top`).
  // ---------------------------------------------------------------------------

  /** The rows the current view would draw. */
  function ViewRows(st: Dash): Result<seq<Row>, Error> {
    if st.view == SqueueView then
      BuildSqueueList(st.insp.jobs, st.insp.squeueHeader, st.filter, st.selected)
    else
      BuildSinfoList(st.insp.sinfo, st.insp.sinfoHeader)
  }

  /**
   * Put freshly built rows on screen. An empty list is cleared; otherwise the
   * old focus position (the start when nothing had focus) is wrapped into the
   * new list's length.
   */
  function PlaceRows(st: Dash, rows: seq<Row>): (r: Dash)
    ensures r == st.(body := rows, focus := r.focus)
    ensures FocusInBounds(r)
    ensures |st.body| > 0 && |rows| > 0 ==> r.focus == st.focus % |rows|
    ensures |st.body| == 0 ==> r.focus == 0
  {
    if |rows| == 0 then
      st.(body := [], focus := 0)
    else
      var original := if |st.body| == 0 then 0 else st.focus;
      st.(body := rows, focus := original % |rows|)
  }

  /** Every row of the current view can be built. */
  ghost predicate ViewBuildable(st: Dash) {
    if st.view == SqueueView then
      ListBuildable(st.insp.jobs, st.insp.squeueHeader, st.filter)
    else
      forall i :: 0 <= i < |st.insp.sinfo| ==> HasColumns(st.insp.sinfo[i], st.insp.sinfoHeader)
  }

  /**
   * The displayed rows are the current view's: in the job view one row per
   * shown job, in order, marked by the selection; in the node view one row
   * per sinfo record with that record's cells.
   */
  ghost predicate Drawn(st: Dash) {
    if st.view == SqueueView then
      var shown := ShownJobs(st.insp.jobs, st.insp.squeueHeader, st.filter);
      && |st.body| == |shown|
      && forall k :: 0 <= k < |st.body| ==> IsRowFor(st.body[k], shown[k], st.insp.squeueHeader, st.selected)
    else
      && |st.body| == |st.insp.sinfo|
      && forall k :: 0 <= k < |st.body| ==>
           st.body[k].InfoRow? && Cells(st.insp.sinfo[k], st.insp.sinfoHeader) == Success(st.body[k].cells)
  }

  /**
   * `draw_body`: replace the displayed rows by the current view's rows,
   * keeping the focus position wrapped into the new list. It fails when a row
   * cannot be built.
   */
  function DrawBody(st: Dash): (r: Result<Dash, Error>)
    ensures r.Success? <==> ViewBuildable(st)
    ensures r.Success? ==> r.value == st.(body := r.value.body, focus := r.value.focus)
    ensures r.Success? ==> Drawn(r.value) && FocusInBounds(r.value)
    ensures r.Success? && |st.body| > 0 && |r.value.body| > 0 ==> r.value.focus == st.focus % |r.value.body|
    ensures r.Success? && |st.body| == 0 ==> r.value.focus == 0
  {
    match ViewRows(st)
    case Failure(e) => Failure(e)
    case Success(rows) => Success(PlaceRows(st, rows))
  }

  /** `_set_view`: switch view, then redraw body and header. */
  function SetView(st: Dash, v: View): (r: Result<Dash, Error>)
    ensures r.Success? <==> ViewBuildable(st.(view := v))
    ensures r.Success? ==> r.value.view == v
    ensures r.Success? ==>
              r.value.header == (if v == SqueueView then st.insp.squeueHeader else st.insp.sinfoHeader)
    ensures r.Success? ==> r.value == st.(view := v, header := r.value.header, body := r.value.body, focus := r.value.focus)
    ensures r.Success? ==> Drawn(r.value) && FocusInBounds(r.value)
    ensures r.Success? && |st.body| > 0 && |r.value.body| > 0 ==> r.value.focus == st.focus % |r.value.body|
    ensures r.Success? && |st.body| == 0 ==> r.value.focus == 0
  {
    var drawn :- DrawBody(st.(view := v));
    Success(drawn.(header := if v == SqueueView then drawn.insp.squeueHeader else drawn.insp.sinfoHeader))
  }

  /** `update_filter_str`: store the search text and redraw. */
  function SetFilter(st: Dash, text: string): (r: Result<Dash, Error>)
    ensures r.Success? <==> ViewBuildable(st.(filter := text))
    ensures r.Success? ==> r.value == st.(filter := text, body := r.value.body, focus := r.value.focus)
    ensures r.Success? ==> Drawn(r.value) && FocusInBounds(r.value)
    ensures r.Success? && |st.body| > 0 && |r.value.body| > 0 ==> r.value.focus == st.focus % |r.value.body|
    ensures r.Success? && |st.body| == 0 ==> r.value.focus == 0
  {
    DrawBody(st.(filter := text))
  }

  // ---------------------------------------------------------------------------
  // Selection (`_toggle_selected`, `clear_selection`, `cancel_selected_jobs`).
  // ---------------------------------------------------------------------------

  /** Add the id when absent, remove it when present. */
  function ToggleId(s: set<string>, id: string): (r: set<string>)
    ensures id in r <==> id !in s
    ensures forall x :: x != id ==> (x in r <==> x in s)
  {
    if id in s then s - {id} else s + {id}
  }

  /** Toggling the same id twice restores the selection. */
  lemma ToggleIdTwice(s: set<string>, id: string)
    ensures ToggleId(ToggleId(s, id), id) == s
  {
  }

  /**
   * `_toggle_selected`, activated on the focused row: a job row's id is added
   * to or removed from the selection, the counter and the row's mark follow,
   * and focus moves to the next row, wrapping to the first. With no job row
   * under the cursor nothing happens.
   */
  function ToggleSelected(st: Dash): (r: Dash)
    ensures st.focus < |st.body| && st.body[st.focus].JobRow? ==>
              var id := st.body[st.focus].jobId;
              && r.selected == ToggleId(st.selected, id)
              && CounterInSync(r)
              && r.focus == (st.focus + 1) % |st.body|
              && |r.body| == |st.body|
              && r.body[st.focus] == st.body[st.focus].(marked := id in r.selected)
              && (forall k :: 0 <= k < |st.body| && k != st.focus ==> r.body[k] == st.body[k])
    ensures !(st.focus < |st.body| && st.body[st.focus].JobRow?) ==> r == st
    ensures Consistent(st) ==> Consistent(r)
    ensures r == st.(selected := r.selected, counter := r.counter, body := r.body, focus := r.focus)
  {
    if st.focus < |st.body| && st.body[st.focus].JobRow? then
      var id := st.body[st.focus].jobId;
      var sel := ToggleId(st.selected, id);
      st.(selected := sel,
          counter := |sel|,
          body := st.body[st.focus := st.body[st.focus].(marked := id in sel)],
          focus := (st.focus + 1) % |st.body|)
    else
      st
  }

  /** `clear_selection`: empty the selection, reset the counter, close the prompt, redraw. */
  function ClearSelection(st: Dash): (r: Result<Dash, Error>)
    ensures r.Success? <==> ViewBuildable(st)
    ensures r.Success? ==>
              r.value == st.(selected := {}, counter := r.value.counter, overlay := Top,
                             body := r.value.body, focus := r.value.focus)
    ensures r.Success? ==> CounterText(r.value.counter) == "[0] Selected"
    ensures r.Success? ==> Drawn(r.value) && Consistent(r.value)
    ensures r.Success? && |st.body| > 0 && |r.value.body| > 0 ==> r.value.focus == st.focus % |r.value.body|
    ensures r.Success? && |st.body| == 0 ==> r.value.focus == 0
    ensures r.Success? ==> forall k :: 0 <= k < |r.value.body| && r.value.body[k].JobRow? ==> !r.value.body[k].marked
  {
    var cleared := st.(selected := {}, counter := 0, overlay := Top);
    assert CounterText(0) == "[0] Selected";
    var r :- DrawBody(cleared);
    assert forall k :: 0 <= k < |r.body| && r.body[k].JobRow? ==> !r.body[k].marked by {
      if st.view == SqueueView {
        forall k | 0 <= k < |r.body| && r.body[k].JobRow? ensures !r.body[k].marked {
          assert IsRowFor(r.body[k], ShownJobs(st.insp.jobs, st.insp.squeueHeader, st.filter)[k],
                          st.insp.squeueHeader, {});
        }
      }
    }
    Success(r)
  }

  /** What the last failing cancel among `ids` leaves on screen; `Top` when none failed. */
  function LastFailure(ids: seq<string>, stderrOf: string -> string): Overlay {
    if |ids| == 0 then Top
    else if !CancelSucceeded(stderrOf(ids[|ids| - 1])) then ErrorBox(stderrOf(ids[|ids| - 1]))
    else LastFailure(ids[..|ids| - 1], stderrOf)
  }

  /**
   * `cancel_selected_jobs`: run `scancel` for every id selected at the start
   * (the loop walks a copy, in the set's own order), drop an id from the
   * selection only when its cancel wrote nothing to stderr, and show the
   * stderr of a failing cancel. `stderrOf(id)` is what `CancelCommand(id)`
   * writes to stderr; `attempted` lists the ids in the order they were tried.
   */
  method CancelSelected(st: Dash, stderrOf: string -> string) returns (r: Dash, attempted: seq<string>)
    ensures forall id :: id in attempted <==> id in st.selected
    ensures Distinct(attempted) && |attempted| == |st.selected|
    ensures r.selected == set id | id in st.selected && !CancelSucceeded(stderrOf(id))
    ensures r.overlay == LastFailure(attempted, stderrOf)
    ensures r == st.(selected := r.selected, counter := r.counter, overlay := r.overlay)
    ensures CounterInSync(st) ==> CounterInSync(r)
  {
    r := st.(overlay := Top);
    attempted := [];
    var pending := st.selected;
    ghost var failed := set id | id in st.selected && !CancelSucceeded(stderrOf(id));
    while pending != {}
      invariant pending <= st.selected
      invariant forall id :: id in attempted <==> id in st.selected && id !in pending
      invariant Distinct(attempted) && |attempted| + |pending| == |st.selected|
      invariant r.selected == pending + failed
      invariant r.overlay == LastFailure(attempted, stderrOf)
      invariant r == st.(selected := r.selected, counter := r.counter, overlay := r.overlay)
      invariant CounterInSync(st) ==> CounterInSync(r)
      decreases pending
    {
      var id :| id in pending;
      SelectionStep(r.selected, pending, failed, id, CancelSucceeded(stderrOf(id)));
      var tried := attempted;
      DistinctAppend(tried, id);
      pending := pending - {id};
      attempted := tried + [id];
      assert attempted[..|attempted| - 1] == tried;
      r := CancelOne(r, id, stderrOf(id));
    }
  }

  /** Settling one pending id keeps "still selected = pending or failed". */
  lemma SelectionStep(selected: set<string>, pending: set<string>, failed: set<string>, id: string, succeeded: bool)
    requires selected == pending + failed && id in pending
    requires id in failed <==> !succeeded
    ensures (if succeeded then selected - {id} else selected) == (pending - {id}) + failed
  {
  }

  lemma DistinctAppend(s: seq<string>, x: string)
    requires Distinct(s) && x !in s
    ensures Distinct(s + [x])
  {
  }

  /**
   * One `scancel` outcome: an empty stderr drops `id` from the selection and
   * redraws the counter, anything else is shown in an error box.
   */
  function CancelOne(st: Dash, id: string, err: string): (r: Dash)
    ensures CancelSucceeded(err) ==> r.selected == st.selected - {id} && CounterInSync(r) && r.overlay == st.overlay
    ensures !CancelSucceeded(err) ==> r.selected == st.selected && r.counter == st.counter && r.overlay == ErrorBox(err)
    ensures r == st.(selected := r.selected, counter := r.counter, overlay := r.overlay)
  {
    if CancelSucceeded(err) then
      var sel := st.selected - {id};
      st.(selected := sel, counter := |sel|)
    else
      st.(overlay := ErrorBox(err))
  }

  // ---------------------------------------------------------------------------
  // Key dispatch (`_handle_input`).
  // ---------------------------------------------------------------------------

  /** The "My Jobs" check box: its tick flips and the user filter toggles with it. */
  function ToggleMyJobs(st: Dash): (r: Dash)
    ensures r.myJobsBox == !st.myJobsBox
    ensures r.insp == ToggleUserFilter(st.insp)
    ensures r == st.(myJobsBox := r.myJobsBox, insp := r.insp)
    ensures FiltersInSync(st) ==> FiltersInSync(r)
  {
    st.(myJobsBox := !st.myJobsBox, insp := ToggleUserFilter(st.insp))
  }

  /** The "Running" check box: its tick flips and the running filter toggles with it. */
  function ToggleRunningJobs(st: Dash): (r: Dash)
    ensures r.runningBox == !st.runningBox
    ensures r.insp == ToggleRunningFilter(st.insp)
    ensures r == st.(runningBox := r.runningBox, insp := r.insp)
    ensures FiltersInSync(st) ==> FiltersInSync(r)
  {
    st.(runningBox := !st.runningBox, insp := ToggleRunningFilter(st.insp))
  }

  /** What a key asks for. */
  datatype Command =
    | Quit | ShowJobs | ShowInfo | ToggleMine | ToggleRunning
    | AskClear | Search | AskCancel | FocusList | Help | Ignore

  /** The key bindings of `_handle_input`; both cases of a letter do the same. */
  function KeyCommand(key: string): (c: Command)
    ensures c == Quit <==> key in {"Q", "q"}
    ensures c == ShowJobs <==> key in {"J", "j"}
    ensures c == ShowInfo <==> key in {"I", "i"}
    ensures c == ToggleMine <==> key in {"M", "m"}
    ensures c == ToggleRunning <==> key in {"R", "r"}
    ensures c == AskClear <==> key in {"C", "c"}
    ensures c == Search <==> key == "/"
    ensures c == AskCancel <==> key == "backspace"
    ensures c == FocusList <==> key == "tab"
    ensures c == Help <==> key in {"H", "h"}
    ensures c == Ignore <==> key !in {"Q", "q", "J", "j", "I", "i", "M", "m", "R", "r", "C", "c",
                                      "/", "backspace", "tab", "H", "h"}
  {
    if key in {"Q", "q"} then Quit
    else if key in {"J", "j"} then ShowJobs
    else if key in {"I", "i"} then ShowInfo
    else if key in {"M", "m"} then ToggleMine
    else if key in {"R", "r"} then ToggleRunning
    else if key in {"C", "c"} then AskClear
    else if key == "/" then Search
    else if key == "backspace" then AskCancel
    else if key == "tab" then FocusList
    else if key in {"H", "h"} then Help
    else Ignore
  }

  /**
   * The commands that stay on the current view: they change only the overlay,
   * the focused pane, the check boxes with their filters, or the main loop's
   * running flag.
   */
  function Act(st: Dash, cmd: Command): (r: Dash)
    requires cmd !in {ShowJobs, ShowInfo}
    ensures cmd == Quit ==> r == st.(running := false)
    ensures cmd == ToggleMine ==> r == ToggleMyJobs(st)
    ensures cmd == ToggleRunning ==> r == ToggleRunningJobs(st)
    ensures cmd == AskClear && st.view == SqueueView ==> r == st.(overlay := ConfirmClear)
    ensures cmd == Search && st.view == SqueueView ==> r == st.(pane := FooterPane)
    ensures cmd == AskCancel && st.view == SqueueView && |st.selected| > 0 ==>
              r == st.(overlay := ConfirmCancel(|st.selected|))
    ensures cmd == AskCancel && |st.selected| == 0 ==> r == st
    ensures cmd == FocusList ==> r == st.(pane := BodyPane)
    ensures cmd == Help ==> r == st.(overlay := HelpBox)
    ensures cmd == Ignore ==> r == st
    ensures r.overlay == ConfirmClear && st.overlay != ConfirmClear ==> st.view == SqueueView && cmd == AskClear
    ensures r.overlay.ConfirmCancel? && !st.overlay.ConfirmCancel? ==>
              st.view == SqueueView && |st.selected| > 0 && r.overlay.count == |st.selected| && cmd == AskCancel
    ensures r.pane == FooterPane && st.pane != FooterPane ==> st.view == SqueueView && cmd == Search
    ensures st.view == SinfoView && cmd in {AskClear, Search, AskCancel} ==> r == st
    ensures r == st.(overlay := r.overlay, pane := r.pane, running := r.running,
                     myJobsBox := r.myJobsBox, runningBox := r.runningBox, insp := r.insp)
    ensures FiltersInSync(st) ==> FiltersInSync(r)
  {
    match cmd
    case Quit => st.(running := false)
    case ToggleMine => ToggleMyJobs(st)
    case ToggleRunning => ToggleRunningJobs(st)
    case AskClear => if st.view == SqueueView then st.(overlay := ConfirmClear) else st
    case Search => if st.view == SqueueView then st.(pane := FooterPane) else st
    case AskCancel =>
      if st.view == SqueueView && |st.selected| > 0 then st.(overlay := ConfirmCancel(|st.selected|)) else st
    case FocusList => st.(pane := BodyPane)
    case Help => st.(overlay := HelpBox)
    case Ignore => st
  }

  /**
   * Carry out a command. `Quit` ends the main loop; `AskClear`, `Search` and
   * `AskCancel` act only in the job view, `AskCancel` only with a non-empty
   * selection; no command changes the selection.
   */
  function Dispatch(st: Dash, cmd: Command): (r: Result<Dash, Error>)
    ensures r.Failure? ==> cmd in {ShowJobs, ShowInfo}
    ensures cmd == ShowJobs ==> r == SetView(st, SqueueView)
    ensures cmd == ShowInfo ==> r == SetView(st, SinfoView)
    ensures cmd == ShowJobs ==> (r.Success? <==> ViewBuildable(st.(view := SqueueView)))
    ensures cmd == ShowInfo ==> (r.Success? <==> ViewBuildable(st.(view := SinfoView)))
    ensures cmd == ShowJobs && r.Success? ==> r.value.view == SqueueView
    ensures cmd == ShowInfo && r.Success? ==> r.value.view == SinfoView
    ensures cmd in {ShowJobs, ShowInfo} && r.Success? ==>
              && Drawn(r.value)
              && r.value == st.(view := r.value.view, header := r.value.header,
                                body := r.value.body, focus := r.value.focus)
    ensures cmd == Quit ==> r == Success(st.(running := false))
    ensures cmd == ToggleMine ==> r == Success(ToggleMyJobs(st))
    ensures cmd == ToggleRunning ==> r == Success(ToggleRunningJobs(st))
    ensures cmd == AskClear && st.view == SqueueView ==> r == Success(st.(overlay := ConfirmClear))
    ensures cmd == Search && st.view == SqueueView ==> r == Success(st.(pane := FooterPane))
    ensures cmd == AskCancel && st.view == SqueueView && |st.selected| > 0 ==>
              r == Success(st.(overlay := ConfirmCancel(|st.selected|)))
    ensures cmd == AskCancel && |st.selected| == 0 ==> r == Success(st)
    ensures cmd == FocusList ==> r == Success(st.(pane := BodyPane))
    ensures cmd == Help ==> r == Success(st.(overlay := HelpBox))
    ensures cmd == Ignore ==> r == Success(st)
    ensures r.Success? && r.value.overlay == ConfirmClear && st.overlay != ConfirmClear ==>
              st.view == SqueueView && cmd == AskClear
    ensures r.Success? && r.value.overlay.ConfirmCancel? && !st.overlay.ConfirmCancel? ==>
              st.view == SqueueView && |st.selected| > 0 && r.value.overlay.count == |st.selected| && cmd == AskCancel
    ensures r.Success? && r.value.pane == FooterPane && st.pane != FooterPane ==>
              st.view == SqueueView && cmd == Search
    ensures st.view == SinfoView && cmd in {AskClear, Search, AskCancel} ==> r == Success(st)
    ensures r.Success? ==> r.value.selected == st.selected && r.value.counter == st.counter
    ensures r.Success? && Consistent(st) ==> Consistent(r.value)
    ensures r.Success? && FiltersInSync(st) ==> FiltersInSync(r.value)
  {
    if cmd == ShowJobs then SetView(st, SqueueView)
    else if cmd == ShowInfo then SetView(st, SinfoView)
    else Success(Act(st, cmd))
  }

  /** `_handle_input` for a key no widget consumed. */
  function HandleKey(st: Dash, key: string): (r: Result<Dash, Error>)
    ensures key in {"J", "j"} ==> r == SetView(st, SqueueView)
    ensures key in {"I", "i"} ==> r == SetView(st, SinfoView)
    ensures key in {"J", "j"} && r.Success? ==> r.value.view == SqueueView
    ensures key in {"I", "i"} && r.Success? ==> r.value.view == SinfoView
    ensures key in {"Q", "q"} ==> r == Success(st.(running := false))
    ensures key in {"M", "m"} ==> r == Success(ToggleMyJobs(st))
    ensures key in {"R", "r"} ==> r == Success(ToggleRunningJobs(st))
    ensures key in {"C", "c"} && st.view == SqueueView ==> r == Success(st.(overlay := ConfirmClear))
    ensures key == "/" && st.view == SqueueView ==> r == Success(st.(pane := FooterPane))
    ensures key == "backspace" && st.view == SqueueView && |st.selected| > 0 ==>
              r == Success(st.(overlay := ConfirmCancel(|st.selected|)))
    ensures key == "backspace" && |st.selected| == 0 ==> r == Success(st)
    ensures key == "tab" ==> r == Success(st.(pane := BodyPane))
    ensures key in {"H", "h"} ==> r == Success(st.(overlay := HelpBox))
    ensures key !in {"Q", "q", "J", "j", "I", "i", "M", "m", "R", "r", "C", "c", "/", "backspace", "tab", "H", "h"} ==>
              r == Success(st)
    ensures st.view == SinfoView && key in {"C", "c", "/", "backspace"} ==> r == Success(st)
    ensures r.Success? && r.value.overlay.ConfirmCancel? && !st.overlay.ConfirmCancel? ==>
              key == "backspace" && st.view == SqueueView && |st.selected| > 0
    ensures r.Success? ==> r.value.selected == st.selected
    ensures r.Success? && Consistent(st) ==> Consistent(r.value)
  {
    Dispatch(st, KeyCommand(key))
  }

  /** `_return_to_top`: the "No" and "OK" buttons close the overlay. */
  function Dismiss(st: Dash): (r: Dash)
    ensures r.overlay == Top && r.(overlay := st.overlay) == st
  {
    st.(overlay := Top)
  }

  /**
   * Opening a prompt or the help box from the main frame and answering "No"
   * (or "OK") leaves the dashboard exactly as it was.
   */
  lemma PromptThenDismiss(st: Dash, cmd: Command)
    requires st.overlay == Top && cmd in {AskClear, AskCancel, Help}
    ensures Dispatch(st, cmd).Success?
    ensures Dismiss(Dispatch(st, cmd).value) == st
  {
  }

  /**
   * `Tui.__init__`: fetch the jobs, start in the job view with an empty
   * selection, unticked check boxes and the counter at zero, and draw.
   */
  function InitDash(insp: Inspector, squeueOutput: string): (r: Result<Dash, Error>)
    ensures r.Success? <==>
              && RefreshJobs(insp, squeueOutput).Success?
              && ListBuildable(RefreshJobs(insp, squeueOutput).value.jobs,
                               RefreshJobs(insp, squeueOutput).value.squeueHeader, "")
    ensures r.Success? ==> r.value.insp == RefreshJobs(insp, squeueOutput).value
    ensures r.Success? ==>
              && r.value.view == SqueueView && r.value.selected == {} && r.value.filter == ""
              && r.value.header == r.value.insp.squeueHeader && r.value.overlay == Top && r.value.running
              && r.value.pane == BodyPane && !r.value.myJobsBox && !r.value.runningBox
              && r.value.focus == 0 && Consistent(r.value)
    ensures r.Success? ==> Drawn(r.value)
    ensures r.Success? ==>
              (FiltersInSync(r.value) <==> !HasKey(insp.squeueGetopts, "-u") && !HasKey(insp.squeueGetopts, "--state"))
  {
    var fetched :- RefreshJobs(insp, squeueOutput);
    var st := Dash(fetched, SqueueView, "", {}, 0, false, false,
                   fetched.squeueHeader, [], 0, Top, BodyPane, true);
    DrawBody(st)
  }
}

=== FILE: ordered_dict.dfy ===
/**
 * Python's `dict` as the code uses it: a finite map whose entries remember the
 * order in which their keys were first inserted. Iterating `items()` follows
 * that order, which is what makes option lists come out in a fixed order.
 */
module OrderedDict {
  import opened Wrappers

  ghost predicate DistinctKeys<K, V>(es: seq<(K, V)>) {
    forall i, j :: 0 <= i < j < |es| ==> es[i].0 != es[j].0
  }

  /** A dict: its `items()` in insertion order, each key at most once. */
  type Dict<K(==, !new), V> = es: seq<(K, V)> | DistinctKeys(es) witness []

  /** `list(d.keys())`. */
  function Keys<K, V>(d: seq<(K, V)>): seq<K> {
    seq(|d|, i requires 0 <= i < |d| => d[i].0)
  }

  /** `k in d`. */
  predicate HasKey<K(==, !new), V>(d: seq<(K, V)>, k: K) {
    k in Keys(d)
  }

  /** Position of the entry for `k`: the first one, and in a dict the only one. */
  function IndexOf<K(==, !new), V>(d: seq<(K, V)>, k: K): (i: nat)
    requires HasKey(d, k)
    ensures i < |d| && d[i].0 == k
    ensures forall j :: 0 <= j < i ==> d[j].0 != k
  {
    if d[0].0 == k then
      0
    else
      assert Keys(d) == [d[0].0] + Keys(d[1..]);
      1 + IndexOf(d[1..], k)
  }

  /** `d.get(k)`: the value stored under `k`, if any. */
  function Get<K(==, !new), V>(d: seq<(K, V)>, k: K): Option<V> {
    if HasKey(d, k) then Some(d[IndexOf(d, k)].1) else None
  }

  /** Every entry of a dict is what a lookup of its key finds. */
  lemma GetAt<K(!new), V>(d: Dict<K, V>, i: nat)
    requires i < |d|
    ensures Get(d, d[i].0) == Some(d[i].1)
  {
    assert Keys(d)[i] == d[i].0;
  }

  /** `d[k] = v`: an existing key keeps its position, a new key goes last. */
  function Set<K(==, !new), V>(d: Dict<K, V>, k: K, v: V): (r: Dict<K, V>)
    ensures Get(r, k) == Some(v)
    ensures forall k' :: k' != k ==> Get(r, k') == Get(d, k')
    ensures HasKey(d, k) ==> Keys(r) == Keys(d)
    ensures !HasKey(d, k) ==> Keys(r) == Keys(d) + [k]
    ensures !HasKey(d, k) ==> r == d + [(k, v)]
  {
    if HasKey(d, k) then
      var i := IndexOf(d, k);
      var r: Dict<K, V> := d[i := (k, v)];
      assert Keys(r) == Keys(d);
      GetAt(r, i);
      assert forall k' :: k' != k ==> Get(r, k') == Get(d, k') by {
        forall k' | k' != k ensures Get(r, k') == Get(d, k') {
          if HasKey(d, k') {
            var j := IndexOf(d, k');
            GetAt(r, j);
          }
        }
      }
      r
    else
      assert forall j :: 0 <= j < |d| ==> Keys(d)[j] == d[j].0;
      var r: Dict<K, V> := d + [(k, v)];
      assert Keys(r) == Keys(d) + [k];
      GetAt(r, |d|);
      assert forall k' :: k' != k ==> Get(r, k') == Get(d, k') by {
        forall k' | k' != k ensures Get(r, k') == Get(d, k') {
          if HasKey(d, k') {
            var j := IndexOf(d, k');
            GetAt(r, j);
          }
        }
      }
      r
  }

  /** `del d[k]`: the entry goes, the others keep their order. */
  function Delete<K(==, !new), V>(d: Dict<K, V>, k: K): (r: Dict<K, V>)
    requires HasKey(d, k)
    ensures !HasKey(r, k)
    ensures forall k' :: k' != k ==> Get(r, k') == Get(d, k')
    ensures |r| == |d| - 1
    ensures Keys(r) == Keys(d)[..IndexOf(d, k)] + Keys(d)[IndexOf(d, k) + 1..]
  {
    var i := IndexOf(d, k);
    RemoveAtKeys(d, i);
    var r: Dict<K, V> := d[..i] + d[i + 1..];
    assert forall k' :: k' != k ==> Get(r, k') == Get(d, k') by {
      forall k' | k' != k ensures Get(r, k') == Get(d, k') {
        RemoveAtGet(d, i, k');
      }
    }
    r
  }

  lemma RemoveAtKeys<K(!new), V>(d: Dict<K, V>, i: nat)
    requires i < |d|
    ensures DistinctKeys(d[..i] + d[i + 1..])
    ensures Keys(d[..i] + d[i + 1..]) == Keys(d)[..i] + Keys(d)[i + 1..]
  {
    var r := d[..i] + d[i + 1..];
    forall j, j' | 0 <= j < j' < |r| ensures r[j].0 != r[j'].0 {
      var a := if j < i then j else j + 1;
      var b := if j' < i then j' else j' + 1;
      assert r[j] == d[a] && r[j'] == d[b];
    }
  }

  lemma RemoveAtGet<K(!new), V>(d: Dict<K, V>, i: nat, k': K)
    requires i < |d| && k' != d[i].0
    ensures Get(d[..i] + d[i + 1..], k') == Get(d, k')
  {
    RemoveAtKeys(d, i);
    var r: Dict<K, V> := d[..i] + d[i + 1..];
    if HasKey(d, k') {
      var j := IndexOf(d, k');
      GetAt(d, j);
      if j < i {
        assert r[j] == d[j];
        GetAt(r, j);
      } else {
        assert r[j - 1] == d[j];
        GetAt(r, j - 1);
      }
    } else {
      assert !HasKey(r, k');
    }
  }

  /** Deleting the key that was just added undoes the addition. */
  lemma DeleteUndoesAdd<K(!new), V>(d: Dict<K, V>, k: K, v: V)
    requires !HasKey(d, k)
    ensures Delete(Set(d, k, v), k) == d
  {
    var s := Set(d, k, v);
    assert s == d + [(k, v)];
    assert IndexOf(s, k) == |d|;
  }

  function Min(a: nat, b: nat): nat {
    if a <= b then a else b
  }

  ghost predicate Distinct<T>(s: seq<T>) {
    forall i, j :: 0 <= i < j < |s| ==> s[i] != s[j]
  }

  /**
   * `{h: t for h, t in zip(hs, ts)}`: the pairs of equal position, as far as the
   * shorter sequence goes, inserted from left to right.
   */
  function Zip<K(==, !new), V>(hs: seq<K>, ts: seq<V>): (r: Dict<K, V>)
    ensures |r| <= Min(|hs|, |ts|)
    ensures forall k :: HasKey(r, k) <==> k in hs[..Min(|hs|, |ts|)]
    ensures forall k :: HasKey(r, k) ==> k in hs
    decreases |hs|
  {
    var n := Min(|hs|, |ts|);
    if n == 0 then
      []
    else
      var prev := Zip(hs[..n - 1], ts[..n - 1]);
      var r := Set(prev, hs[n - 1], ts[n - 1]);
      assert hs[..n] == hs[..n - 1] + [hs[n - 1]];
      assert forall k :: HasKey(r, k) <==> HasKey(prev, k) || k == hs[n - 1];
      r
  }

  /** A key is looked up to the value at its last position among the zipped pairs. */
  lemma {:induction false} ZipGet<K(!new), V>(hs: seq<K>, ts: seq<V>, i: nat)
    requires i < Min(|hs|, |ts|)
    requires hs[i] !in hs[i + 1..Min(|hs|, |ts|)]
    ensures Get(Zip(hs, ts), hs[i]) == Some(ts[i])
    decreases |hs|
  {
    var n := Min(|hs|, |ts|);
    if i < n - 1 {
      assert hs[n - 1] in hs[i + 1..n];
      assert hs[..n - 1][i + 1..n - 1] == hs[i + 1..n - 1];
      ZipGet(hs[..n - 1], ts[..n - 1], i);
    }
  }

  lemma LastNotInPrefix<T>(s: seq<T>)
    requires |s| > 0 && Distinct(s)
    ensures s[|s| - 1] !in s[..|s| - 1]
  {
  }

  /** With distinct keys, the zipped dict has exactly the keys, in their order. */
  lemma {:induction false} ZipKeys<K(!new), V>(hs: seq<K>, ts: seq<V>)
    requires Distinct(hs[..Min(|hs|, |ts|)])
    ensures Keys(Zip(hs, ts)) == hs[..Min(|hs|, |ts|)]
    decreases |hs|
  {
    var n := Min(|hs|, |ts|);
    if n > 0 {
      var hs', ts' := hs[..n - 1], ts[..n - 1];
      assert Min(|hs'|, |ts'|) == n - 1;
      assert hs'[..n - 1] == hs';
      assert hs[..n] == hs' + [hs[n - 1]];
      LastNotInPrefix(hs[..n]);
      ZipKeys(hs', ts');
      var prev := Zip(hs', ts');
      assert Zip(hs, ts) == Set(prev, hs[n - 1], ts[n - 1]);
    }
  }
}

=== FILE: scenarios.dfy ===
/**
 * Worked examples: the parse-and-filter pipeline on a job listing, once as
 * `squeue` prints it (one final newline) and once with an extra blank line at
 * the end. Each example is a general lemma followed by a concrete instance.
 */
module Scenarios {
  import opened Wrappers
  import opened Text
  import opened OrderedDict
  import opened Tools
  import opened Dash

  const Header: seq<string> := ["JOBID", "USER", "STATE"]
  const Row1: seq<string> := ["101", "alice", "RUNNING"]
  const Row2: seq<string> := ["102", "bob", "PENDING"]

  /** A pattern whose first character is absent from `s` does not occur in `s`. */
  lemma AbsentFirstChar(p: string, s: string)
    requires |p| > 0 && p[0] !in s
    ensures !OccursIn(p, s)
  {
  }

  /** A parsed record that has every header column yields exactly its row as cells. */
  lemma CellsOfParsed(rec: Record, header: seq<string>, row: seq<string>)
    requires |row| == |header|
    requires forall j :: 0 <= j < |header| ==> Get(rec, header[j]) == Some(row[j])
    ensures Cells(rec, header) == Success(row)
  {
    assert HasColumns(rec, header) by {
      forall j | 0 <= j < |header| ensures HasKey(rec, header[j]) {
        GetSomeHasKey(rec, header[j]);
      }
    }
    var c := Cells(rec, header).value;
    assert |c| == |row|;
    forall j | 0 <= j < |header| ensures c[j] == row[j] {
      assert Get(rec, header[j]) == Some(c[j]);
    }
    assert c == row;
  }

  lemma GetSomeHasKey(rec: Record, k: string)
    requires Get(rec, k).Some?
    ensures HasKey(rec, k)
  {
  }

  /**
   * Two well-formed rows under a header that starts with `JOBID`: a search that
   * matches only the second row lists exactly that job, unmarked.
   */
  lemma FilterPicksSecond(header: seq<string>, r1: seq<string>, r2: seq<string>, filter: string)
    requires Distinct(header) && |header| > 0 && header[0] == "JOBID"
    requires forall j :: 0 <= j < |header| ==> IsWord(header[j])
    requires |r1| == |header| && |r2| == |header|
    requires forall j :: 0 <= j < |header| ==> IsWord(r1[j]) && IsWord(r2[j])
    requires !AnyContains(r1, filter) && AnyContains(r2, filter)
    ensures var p := ParseSqueue(Render(header, [r1, r2]));
            && p.Success? && p.value.1 == header && |p.value.0| == 2
            && BuildSqueueList(p.value.0, header, filter, {}) == Success([JobRow(r2[0], r2, false)])
  {
    var jobs := ParsedPair(header, r1, r2);
    ListOfPair(jobs, header, r1, r2, filter);
  }

  /** Two jobs with known cells: only the second matches, so the list is its row alone. */
  lemma ListOfPair(jobs: seq<Job>, header: seq<string>, r1: seq<string>, r2: seq<string>, filter: string)
    requires |jobs| == 2 && |header| > 0 && header[0] == "JOBID"
    requires Cells(jobs[0].attrs, header) == Success(r1) && Cells(jobs[1].attrs, header) == Success(r2)
    requires !AnyContains(r1, filter) && AnyContains(r2, filter)
    ensures BuildSqueueList(jobs, header, filter, {}) == Success([JobRow(r2[0], r2, false)])
  {
    AnyContainsShows(jobs[0].attrs, header, r1, filter);
    AnyContainsShows(jobs[1].attrs, header, r2, filter);
    assert HasKey(jobs[0].attrs, header[0]) && HasKey(jobs[1].attrs, header[0]);
    assert ListBuildable(jobs, header, filter) by {
      ListBuildableCons(jobs, header, filter);
      ListBuildableCons(jobs[1..], header, filter);
    }
    assert ShownJobs(jobs, header, filter) == [jobs[1]] by {
      ShownJobsCons(jobs, header, filter);
      ShownJobsCons(jobs[1..], header, filter);
    }
    var r := BuildSqueueList(jobs, header, filter, {});
    assert |r.value| == 1;
    var row := r.value[0];
    RowOfCells(row, jobs[1], header, r2);
    assert r.value == [row];
  }

  /** A row drawn for a job whose cells are known is determined by them. */
  lemma RowOfCells(row: Row, job: Job, header: seq<string>, cells: seq<string>)
    requires |header| > 0 && header[0] == "JOBID"
    requires Cells(job.attrs, header) == Success(cells)
    requires IsRowFor(row, job, header, {})
    ensures row == JobRow(cells[0], cells, false)
  {
    forall c | 0 <= c < |header| ensures row.cells[c] == cells[c] {
      assert Get(job.attrs, header[c]) == Some(cells[c]);
    }
    assert row.cells == cells;
    assert Get(job.attrs, header[0]) == Some(cells[0]);
  }

  /** The two rows parse to two jobs whose cells are those rows. */
  lemma ParsedPair(header: seq<string>, r1: seq<string>, r2: seq<string>) returns (jobs: seq<Job>)
    requires Distinct(header) && |header| > 0
    requires forall j :: 0 <= j < |header| ==> IsWord(header[j])
    requires |r1| == |header| && |r2| == |header|
    requires forall j :: 0 <= j < |header| ==> IsWord(r1[j]) && IsWord(r2[j])
    ensures var p := ParseSqueue(Render(header, [r1, r2]));
            p.Success? && p.value.1 == header && p.value.0 == jobs
    ensures |jobs| == 2
    ensures Cells(jobs[0].attrs, header) == Success(r1) && Cells(jobs[1].attrs, header) == Success(r2)
    ensures Get(jobs[1].attrs, header[0]) == Some(r2[0])
  {
    var rows := [r1, r2];
    var out := Render(header, rows);
    ParseRoundTrip(header, rows);
    var t := ParseTable(out).value;
    assert |t.rows| == 2 && t.header == header;
    assert forall j :: 0 <= j < |header| ==> Get(t.rows[0], header[j]) == Some(r1[j]) by {
      forall j | 0 <= j < |header| ensures Get(t.rows[0], header[j]) == Some(r1[j]) {
        assert rows[0][j] == r1[j];
      }
    }
    assert forall j :: 0 <= j < |header| ==> Get(t.rows[1], header[j]) == Some(r2[j]) by {
      forall j | 0 <= j < |header| ensures Get(t.rows[1], header[j]) == Some(r2[j]) {
        assert rows[1][j] == r2[j];
      }
    }
    jobs := ParseSqueue(out).value.0;
    assert jobs[0].attrs == t.rows[0] && jobs[1].attrs == t.rows[1];
    CellsOfParsed(jobs[0].attrs, header, r1);
    CellsOfParsed(jobs[1].attrs, header, r2);
  }

  /**
   * A blank line after the last row parses as a further record with no keys,
   * and the job list then cannot be built.
   */
  lemma BlankLineBreaksList(header: seq<string>, r1: seq<string>, r2: seq<string>, filter: string)
    requires Distinct(header) && |header| > 0
    requires forall j :: 0 <= j < |header| ==> IsWord(header[j])
    requires |r1| == |header| && |r2| == |header|
    requires forall j :: 0 <= j < |header| ==> IsWord(r1[j]) && IsWord(r2[j])
    ensures Render(header, [r1, r2, []]) == Render(header, [r1, r2]) + "\n"
    ensures var p := ParseSqueue(Render(header, [r1, r2, []]));
            && p.Success? && p.value.1 == header && |p.value.0| == 3
            && p.value.0[2].attrs == []
            && BuildSqueueList(p.value.0, header, filter, {}).Failure?
  {
    var rows := [r1, r2, []];
    ParseRender(header, rows);
    var jobs := ParseSqueue(Render(header, rows)).value.0;
    assert jobs[2].attrs == Zip(header, []);
    assert !HasColumns(jobs[2].attrs, header) by {
      assert !HasKey(jobs[2].attrs, header[0]);
    }
    var lines := RenderedLines(header, [r1, r2]);
    assert RenderedLines(header, rows) == lines + [""];
    JoinWithEmptyLast(lines, '\n');
  }

  lemma ScenarioWords()
    ensures forall j :: 0 <= j < 3 ==> IsWord(Header[j]) && IsWord(Row1[j]) && IsWord(Row2[j])
  {
  }

  /** The two-job listing as `squeue` prints it. */
  lemma ListingText()
    ensures Render(Header, [Row1, Row2]) == "JOBID USER STATE\n101 alice RUNNING\n102 bob PENDING\n"
  {
    ListingLines();
    JoinListing();
  }

  lemma JoinListing()
    ensures JoinWith(["JOBID USER STATE", "101 alice RUNNING", "102 bob PENDING"], '\n') + "\n"
            == "JOBID USER STATE\n101 alice RUNNING\n102 bob PENDING\n"
  {
    var a, b, c := "JOBID USER STATE", "101 alice RUNNING", "102 bob PENDING";
    assert [a, b, c][1..] == [b, c];
    assert [b, c][1..] == [c];
    assert JoinWith([c], '\n') == c;
    assert JoinWith([b, c], '\n') == b + ['\n'] + c;
    assert JoinWith([a, b, c], '\n') == a + ['\n'] + (b + ['\n'] + c);
  }

  lemma ListingLines()
    ensures RenderedLines(Header, [Row1, Row2]) == ["JOBID USER STATE", "101 alice RUNNING", "102 bob PENDING"]
  {
    assert JoinWith(Header, ' ') == "JOBID USER STATE";
    assert JoinWith(Row1, ' ') == "101 alice RUNNING";
    assert JoinWith(Row2, ' ') == "102 bob PENDING";
  }

  /** `bob` occurs in a cell of the second row only. */
  lemma SearchMatches()
    ensures !AnyContains(Row1, "bob") && AnyContains(Row2, "bob")
  {
    forall i | 0 <= i < 3 ensures !OccursIn("bob", Row1[i]) {
      AbsentFirstChar("bob", Row1[i]);
    }
    assert OccursAt("bob", Row2[1], 0);
  }

  /** Searching `bob` in the two-job listing shows job 102 only. */
  lemma SearchFindsSecondJob()
    ensures var p := ParseSqueue("JOBID USER STATE\n101 alice RUNNING\n102 bob PENDING\n");
            && p.Success? && p.value.1 == Header && |p.value.0| == 2
            && BuildSqueueList(p.value.0, Header, "bob", {})
               == Success([JobRow("102", Row2, false)])
  {
    ListingText();
    SearchListing("JOBID USER STATE\n101 alice RUNNING\n102 bob PENDING\n");
  }

  lemma SearchListing(out: string)
    requires out == Render(Header, [Row1, Row2])
    ensures var p := ParseSqueue(out);
            && p.Success? && p.value.1 == Header && |p.value.0| == 2
            && BuildSqueueList(p.value.0, Header, "bob", {}) == Success([JobRow("102", Row2, false)])
  {
    ScenarioWords();
    SearchMatches();
    FilterPicksSecond(Header, Row1, Row2, "bob");
  }

  /** The same listing followed by a blank line: three records, and no job list. */
  lemma DoubleNewlineFails()
    ensures var p := ParseSqueue("JOBID USER STATE\n101 alice RUNNING\n102 bob PENDING\n\n");
            && p.Success? && |p.value.0| == 3 && p.value.0[2].attrs == []
            && BuildSqueueList(p.value.0, Header, "bob", {}).Failure?
  {
    ListingText();
    var once := "JOBID USER STATE\n101 alice RUNNING\n102 bob PENDING\n";
    assert once + "\n" == "JOBID USER STATE\n101 alice RUNNING\n102 bob PENDING\n\n";
    BlankAfterListing("JOBID USER STATE\n101 alice RUNNING\n102 bob PENDING\n\n");
  }

  lemma BlankAfterListing(out: string)
    requires out == Render(Header, [Row1, Row2]) + "\n"
    ensures var p := ParseSqueue(out);
            && p.Success? && |p.value.0| == 3 && p.value.0[2].attrs == []
            && BuildSqueueList(p.value.0, Header, "bob", {}).Failure?
  {
    ScenarioWords();
    BlankLineBreaksList(Header, Row1, Row2, "bob");
  }
}

=== FILE: text.dfy ===
/**
 * The string primitives the parsing layer relies on: Python's `str.split(sep)`
 * with a one-character separator, `str.split()` with no argument, the
 * substring test `p in s`, and decimal rendering of a count.
 */
module Text {

  /** Characters `str.isspace` accepts, hence the separators of `str.split()`. */
  predicate IsSpace(c: char) {
    || c == ' '
    || '\t' <= c <= '\r'
    || '\U{1c}' <= c <= '\U{1f}'
    || c == '\U{85}'
    || c == '\U{a0}'
    || c == '\U{1680}'
    || '\U{2000}' <= c <= '\U{200a}'
    || c == '\U{2028}'
    || c == '\U{2029}'
    || c == '\U{202f}'
    || c == '\U{205f}'
    || c == '\U{3000}'
  }

  /** A token of `str.split()`: non-empty and free of whitespace. */
  ghost predicate IsWord(w: string) {
    |w| > 0 && forall i :: 0 <= i < |w| ==> !IsSpace(w[i])
  }

  ghost predicate AllSpace(s: string) {
    forall i :: 0 <= i < |s| ==> IsSpace(s[i])
  }

  /** Number of occurrences of `c` in `s`. */
  function Count(s: string, c: char): nat {
    if |s| == 0 then 0 else (if s[0] == c then 1 else 0) + Count(s[1..], c)
  }

  // ---------------------------------------------------------------------------
  // Splitting on one separator character, and its inverse.
  // ---------------------------------------------------------------------------

  /** `parts[0] + sep + parts[1] + ... + sep + parts[n-1]` (`sep.join(parts)`). */
  function JoinWith(parts: seq<string>, sep: char): string {
    if |parts| == 0 then ""
    else if |parts| == 1 then parts[0]
    else parts[0] + [sep] + JoinWith(parts[1..], sep)
  }

  /**
   * `s.split(sep)`: the pieces between consecutive separators. There is always
   * one piece more than there are separators, no piece contains the separator,
   * and joining the pieces back gives `s`.
   */
  function SplitOn(s: string, sep: char): (r: seq<string>)
    ensures |r| == Count(s, sep) + 1
    ensures forall i :: 0 <= i < |r| ==> sep !in r[i]
    ensures JoinWith(r, sep) == s
    decreases |s|
  {
    if |s| == 0 then [""]
    else
      var rest := SplitOn(s[1..], sep);
      if s[0] == sep then
        assert ([""] + rest)[1..] == rest;
        [""] + rest
      else
        var r := [[s[0]] + rest[0]] + rest[1..];
        assert |rest| > 1 ==> r[1..] == rest[1..] && JoinWith(rest, sep) == rest[0] + [sep] + JoinWith(rest[1..], sep);
        assert [s[0]] + s[1..] == s;
        r
  }

  /** Splitting a piece that holds no separator, followed by anything. */
  lemma {:induction false} SplitOnPrefix(a: string, t: string, sep: char)
    requires sep !in a
    ensures SplitOn(a + t, sep) == [a + SplitOn(t, sep)[0]] + SplitOn(t, sep)[1..]
    decreases |a|
  {
    if |a| > 0 {
      assert (a + t)[1..] == a[1..] + t;
      SplitOnPrefix(a[1..], t, sep);
      assert [a[0]] + (a[1..] + SplitOn(t, sep)[0]) == a + SplitOn(t, sep)[0];
    } else {
      assert a + t == t;
      assert a + SplitOn(t, sep)[0] == SplitOn(t, sep)[0];
      assert [SplitOn(t, sep)[0]] + SplitOn(t, sep)[1..] == SplitOn(t, sep);
    }
  }

  /** Splitting a joined list of separator-free pieces gives the pieces back. */
  lemma {:induction false} SplitJoin(parts: seq<string>, sep: char)
    requires |parts| >= 1
    requires forall i :: 0 <= i < |parts| ==> sep !in parts[i]
    ensures SplitOn(JoinWith(parts, sep), sep) == parts
    decreases |parts|
  {
    if |parts| == 1 {
      SplitOnPrefix(parts[0], "", sep);
      assert parts[0] + "" == parts[0];
    } else {
      var tail := JoinWith(parts[1..], sep);
      SplitJoin(parts[1..], sep);
      assert parts[0] + [sep] + tail == parts[0] + ([sep] + tail);
      SplitOnPrefix(parts[0], [sep] + tail, sep);
      assert ([sep] + tail)[1..] == tail;
      assert SplitOn([sep] + tail, sep) == [""] + parts[1..];
      assert parts[0] + "" == parts[0];
      assert [parts[0]] + parts[1..] == parts;
    }
  }

  // ---------------------------------------------------------------------------
  // Whitespace tokenisation (`str.split()` with no argument).
  // ---------------------------------------------------------------------------

  /** Length of the run of non-whitespace characters that starts `s`. */
  function WordLength(s: string): (n: nat)
    ensures n <= |s|
    ensures forall i :: 0 <= i < n ==> !IsSpace(s[i])
    ensures n < |s| ==> IsSpace(s[n])
  {
    if |s| == 0 || IsSpace(s[0]) then 0 else 1 + WordLength(s[1..])
  }

  /** `gaps[0] + words[0] + gaps[1] + ... + words[n-1] + gaps[n]`. */
  function Interleave(gaps: seq<string>, words: seq<string>): string
    requires |gaps| == |words| + 1
    decreases |words|
  {
    if |words| == 0 then gaps[0] else gaps[0] + words[0] + Interleave(gaps[1..], words[1..])
  }

  /**
   * `s` is the words `ws` with whitespace around and between them, at least
   * one whitespace character between neighbours: the reference meaning of
   * `s.split() == ws`.
   */
  ghost predicate SpacedBy(s: string, ws: seq<string>, gaps: seq<string>) {
    && |gaps| == |ws| + 1
    && (forall i :: 0 <= i < |ws| ==> IsWord(ws[i]))
    && (forall i :: 0 <= i < |gaps| ==> AllSpace(gaps[i]))
    && (forall i :: 0 < i < |ws| ==> |gaps[i]| > 0)
    && s == Interleave(gaps, ws)
  }

  ghost predicate WordsOf(s: string, ws: seq<string>) {
    exists gaps :: SpacedBy(s, ws, gaps)
  }

  /**
   * `s.split()`: the maximal runs of non-whitespace characters of `s`, in
   * order. Leading, trailing and repeated whitespace produce no empty tokens,
   * and a string of whitespace only has no tokens at all.
   */
  function Tokens(s: string): (r: seq<string>)
    ensures WordsOf(s, r)
    ensures forall i :: 0 <= i < |r| ==> IsWord(r[i])
    ensures |r| == 0 <==> AllSpace(s)
    decreases |s|
  {
    if |s| == 0 then
      assert SpacedBy(s, [], [""]);
      []
    else if IsSpace(s[0]) then
      var r := Tokens(s[1..]);
      LeadingSpace(s, r);
      r
    else
      var n := WordLength(s);
      var rest := Tokens(s[n..]);
      LeadingWord(s, n, rest);
      [s[..n]] + rest
  }

  lemma LeadingSpace(s: string, r: seq<string>)
    requires |s| > 0 && IsSpace(s[0])
    requires WordsOf(s[1..], r) && (|r| == 0 <==> AllSpace(s[1..]))
    ensures WordsOf(s, r) && (|r| == 0 <==> AllSpace(s))
  {
    if AllSpace(s[1..]) {
      forall i | 0 <= i < |s| ensures IsSpace(s[i]) {
        if i > 0 { assert s[i] == s[1..][i - 1]; }
      }
    }
    var g :| SpacedBy(s[1..], r, g);
    SpaceThenSpaced(s[0], s[1..], r, g);
    assert [s[0]] + s[1..] == s;
  }

  lemma LeadingWord(s: string, n: nat, rest: seq<string>)
    requires 0 < n <= |s| && n == WordLength(s)
    requires WordsOf(s[n..], rest)
    ensures IsWord(s[..n]) && WordsOf(s, [s[..n]] + rest) && !AllSpace(s)
  {
    assert s[..n][0] == s[0];
    var g :| SpacedBy(s[n..], rest, g);
    WordThenSpaced(s[..n], s[n..], rest, g);
    assert s[..n] + s[n..] == s;
  }

  /** Whitespace in front of spaced words joins the first gap. */
  lemma SpaceThenSpaced(c: char, t: string, ws: seq<string>, gaps: seq<string>)
    requires IsSpace(c) && SpacedBy(t, ws, gaps)
    ensures SpacedBy([c] + t, ws, [[c] + gaps[0]] + gaps[1..])
  {
    var g := [[c] + gaps[0]] + gaps[1..];
    assert g[1..] == gaps[1..];
    forall i | 0 <= i < |g| ensures AllSpace(g[i]) {
      if i == 0 {
        assert forall k :: 1 <= k < |g[0]| ==> g[0][k] == gaps[0][k - 1];
      } else {
        assert g[i] == gaps[i];
      }
    }
    if |ws| > 0 {
      assert [c] + t == g[0] + ws[0] + Interleave(g[1..], ws[1..]);
    }
  }

  /** A word in front of spaced words that start with a gap is a new first word. */
  lemma WordThenSpaced(w: string, t: string, ws: seq<string>, gaps: seq<string>)
    requires IsWord(w) && (|t| == 0 || IsSpace(t[0])) && SpacedBy(t, ws, gaps)
    ensures SpacedBy(w + t, [w] + ws, [""] + gaps)
  {
    var g := [""] + gaps;
    var v := [w] + ws;
    assert g[1..] == gaps && v[1..] == ws;
    if |ws| > 0 {
      assert t == gaps[0] + ws[0] + Interleave(gaps[1..], ws[1..]);
      assert |g[1]| > 0;
    }
    assert w + t == g[0] + v[0] + Interleave(g[1..], v[1..]);
  }

  /** Words spaced out by whitespace tokenise back to exactly those words. */
  lemma {:induction false} SpacedTokens(s: string, ws: seq<string>, gaps: seq<string>)
    requires SpacedBy(s, ws, gaps)
    ensures Tokens(s) == ws
    decreases |s|
  {
    if |gaps[0]| > 0 {
      var g := DropLeadingSpace(s, ws, gaps);
      SpacedTokens(s[1..], ws, g);
      TokensOfSpaceThen(s[0], s[1..]);
      assert [s[0]] + s[1..] == s;
    } else if |ws| == 0 {
      assert s == "";
    } else {
      var t := DropFirstWord(s, ws, gaps);
      TokensOfWordThen(ws[0], t);
      SpacedTokens(t, ws[1..], gaps[1..]);
      assert [ws[0]] + ws[1..] == ws;
    }
  }

  /** Spaced words that start with whitespace: the rest is spaced the same way. */
  lemma DropLeadingSpace(s: string, ws: seq<string>, gaps: seq<string>) returns (g: seq<string>)
    requires SpacedBy(s, ws, gaps) && |gaps[0]| > 0
    ensures |s| > 0 && IsSpace(s[0]) && SpacedBy(s[1..], ws, g)
  {
    g := [gaps[0][1..]] + gaps[1..];
    assert g[1..] == gaps[1..];
    assert AllSpace(g[0]);
    assert forall i :: 0 < i < |g| ==> g[i] == gaps[i];
    if |ws| > 0 {
      assert s == [gaps[0][0]] + (g[0] + ws[0] + Interleave(g[1..], ws[1..]));
    } else {
      assert s == [gaps[0][0]] + g[0];
    }
  }

  /** Spaced words with no leading whitespace: the first word, then the rest spaced out. */
  lemma DropFirstWord(s: string, ws: seq<string>, gaps: seq<string>) returns (t: string)
    requires SpacedBy(s, ws, gaps) && |gaps[0]| == 0 && |ws| > 0
    ensures s == ws[0] + t && IsWord(ws[0]) && (|t| == 0 || IsSpace(t[0]))
    ensures SpacedBy(t, ws[1..], gaps[1..]) && |t| < |s|
  {
    t := Interleave(gaps[1..], ws[1..]);
    assert s == ws[0] + t;
    if |ws| > 1 {
      assert t == gaps[1] + ws[1] + Interleave(gaps[2..], ws[2..]);
      assert t[0] == gaps[1][0];
    } else {
      assert t == gaps[1];
    }
    assert forall i :: 0 <= i < |gaps| - 1 ==> gaps[1..][i] == gaps[i + 1];
    assert forall i :: 0 <= i < |ws| - 1 ==> ws[1..][i] == ws[i + 1];
  }

  /** `s.split() == ws` exactly when `s` is `ws` spaced out by whitespace. */
  lemma TokensIff(s: string, ws: seq<string>)
    ensures Tokens(s) == ws <==> WordsOf(s, ws)
  {
    if WordsOf(s, ws) {
      var g :| SpacedBy(s, ws, g);
      SpacedTokens(s, ws, g);
    }
  }

  /** A word followed by nothing or by whitespace is the first token. */
  lemma {:induction false} TokensOfWordThen(w: string, t: string)
    requires IsWord(w)
    requires |t| == 0 || IsSpace(t[0])
    ensures Tokens(w + t) == [w] + Tokens(t)
  {
    var s := w + t;
    WordLengthOfWordThen(w, t);
    assert s[..|w|] == w;
    assert s[|w|..] == t;
  }

  lemma {:induction false} WordLengthOfWordThen(w: string, t: string)
    requires forall i :: 0 <= i < |w| ==> !IsSpace(w[i])
    requires |t| == 0 || IsSpace(t[0])
    ensures WordLength(w + t) == |w|
    decreases |w|
  {
    if |w| > 0 {
      assert (w + t)[1..] == w[1..] + t;
      WordLengthOfWordThen(w[1..], t);
    } else {
      assert w + t == t;
    }
  }

  lemma TokensOfSpaceThen(c: char, t: string)
    requires IsSpace(c)
    ensures Tokens([c] + t) == Tokens(t)
  {
    assert ([c] + t)[1..] == t;
  }

  /** Tokenising words joined by single spaces gives the words back. */
  lemma {:induction false} TokensOfSpaced(ws: seq<string>)
    requires forall i :: 0 <= i < |ws| ==> IsWord(ws[i])
    ensures Tokens(JoinWith(ws, ' ')) == ws
    decreases |ws|
  {
    if |ws| == 0 {
      assert JoinWith(ws, ' ') == "";
    } else if |ws| == 1 {
      TokensOfWordThen(ws[0], "");
      assert ws[0] + "" == ws[0];
    } else {
      TokensOfSpaced(ws[1..]);
      TokensOfSpacedCons(ws);
    }
  }

  lemma TokensOfSpacedCons(ws: seq<string>)
    requires |ws| > 1 && IsWord(ws[0])
    requires Tokens(JoinWith(ws[1..], ' ')) == ws[1..]
    ensures Tokens(JoinWith(ws, ' ')) == ws
  {
    var tail := JoinWith(ws[1..], ' ');
    assert JoinWith(ws, ' ') == ws[0] + ([' '] + tail);
    calc {
      Tokens(ws[0] + ([' '] + tail));
      == { TokensOfWordThen(ws[0], [' '] + tail); }
      [ws[0]] + Tokens([' '] + tail);
      == { TokensOfSpaceThen(' ', tail); }
      [ws[0]] + ws[1..];
      == { assert [ws[0]] + ws[1..] == ws; }
      ws;
    }
  }

  // ---------------------------------------------------------------------------
  // Substring test (`p in s` on Python strings).
  // ---------------------------------------------------------------------------

  /** `p` occurs in `s` starting at offset `i`. */
  ghost predicate OccursAt(p: string, s: string, i: int) {
    0 <= i <= |s| - |p| && s[i..i + |p|] == p
  }

  /** `p` occurs in `s` at some offset. */
  ghost predicate OccursIn(p: string, s: string) {
    exists i :: OccursAt(p, s, i)
  }

  /** Python's `p in s`: decided by trying every offset from the left. */
  function Contains(s: string, p: string): (b: bool)
    ensures b <==> OccursIn(p, s)
    decreases |s|
  {
    if p <= s then
      assert OccursAt(p, s, 0);
      true
    else if |s| == 0 then
      false
    else
      var b := Contains(s[1..], p);
      assert b ==> OccursIn(p, s) by {
        if b {
          var i :| OccursAt(p, s[1..], i);
          assert s[i + 1..i + 1 + |p|] == s[1..][i..i + |p|];
          assert OccursAt(p, s, i + 1);
        }
      }
      assert OccursIn(p, s) ==> b by {
        if OccursIn(p, s) {
          var i :| OccursAt(p, s, i);
          if i > 0 {
            assert s[1..][i - 1..i - 1 + |p|] == s[i..i + |p|];
            assert OccursAt(p, s[1..], i - 1);
          }
        }
      }
      b
  }

  /** The empty string occurs in every string. */
  lemma EmptyOccursEverywhere(s: string)
    ensures Contains(s, "")
  {
  }

  // ---------------------------------------------------------------------------
  // Decimal rendering of a count (`f"{n}"`).
  // ---------------------------------------------------------------------------

  predicate IsDigit(c: char) {
    '0' <= c <= '9'
  }

  function DigitChar(d: nat): (c: char)
    requires d < 10
    ensures IsDigit(c)
  {
    "0123456789"[d]
  }

  function DigitValue(c: char): nat
    requires IsDigit(c)
  {
    c as int - '0' as int
  }

  /** The decimal numeral of `n`: digits only, and no leading zero. */
  function NatToString(n: nat): (s: string)
    ensures |s| >= 1
    ensures forall i :: 0 <= i < |s| ==> IsDigit(s[i])
    ensures |s| > 1 ==> s[0] != '0'
  {
    if n < 10 then [DigitChar(n)] else NatToString(n / 10) + [DigitChar(n % 10)]
  }

  /** The value of a numeral, most significant digit first. */
  function StringToNat(s: string): nat
    requires forall i :: 0 <= i < |s| ==> IsDigit(s[i])
  {
    if |s| == 0 then 0 else 10 * StringToNat(s[..|s| - 1]) + DigitValue(s[|s| - 1])
  }

  /** Reading back a rendered count gives the count. */
  lemma {:induction false} NatToStringRoundTrip(n: nat)
    ensures StringToNat(NatToString(n)) == n
  {
    var s := NatToString(n);
    if n < 10 {
      assert DigitValue(DigitChar(n)) == n;
    } else {
      NatToStringRoundTrip(n / 10);
      assert s[..|s| - 1] == NatToString(n / 10);
      assert DigitValue(DigitChar(n % 10)) == n % 10;
    }
  }

  /** Distinct counts render differently. */
  lemma NatToStringInjective(a: nat, b: nat)
    ensures NatToString(a) == NatToString(b) ==> a == b
  {
    NatToStringRoundTrip(a);
    NatToStringRoundTrip(b);
  }
}

=== FILE: tools.dfy ===
/**
 * The query layer of the dashboard (`slurmvision/slurm/tools.py`): the argv
 * lists for `squeue`, `sinfo` and `scancel`, the parsing of their tabular
 * output, the two filter toggles and the Inspector's configuration checks.
 * Nothing here runs a command: a function that needs a command's output takes
 * it as an argument, already decoded to a string.
 */
module Tools {
  import opened Wrappers
  import opened Text
  import opened OrderedDict

  /** Flag to argument, in insertion order (`squeue_getopts`, `*_formopts`). */
  type Options = Dict<string, string>

  /** One parsed output row: column header to field text. */
  type Record = Dict<string, string>

  /** A row of `squeue` output (`Job.attrs`). */
  datatype Job = Job(attrs: Record)

  /** Parsed command output: the rows in output order and the header tokens. */
  datatype Table = Table(rows: seq<Record>, header: seq<string>)

  datatype FormatKind = SqueueFormat | SinfoFormat | DetailFormat

  /** The exceptions the Python code raises, one constructor per cause. */
  datatype Error =
    | NoHeaderLine               // IndexError: `lines[0]` when the output has no newline
    | EmptyFormat                // IndexError: first item of an empty format dict
    | NoDetailRows               // IndexError: `detail_info[0]` when no row was parsed
    | MissingColumn(key: string) // KeyError: a record lacks a header column
    | FormatSize(which: FormatKind) // AssertionError: a supplied format dict of size other than 1
    | DetailFormatUnset          // AttributeError: `self.detail_formopts` read before any assignment

  // ---------------------------------------------------------------------------
  // Default formats.
  // ---------------------------------------------------------------------------

  /** Column width requested for text fields (`MAX_CHAR`). */
  const MaxChar: nat := 256

  const DetailFields: seq<string> := [
    "JobId", "UserName", "Name", "STATE", "Reason", "Nodes", "NumCPUs",
    "cpus-per-task", "Partition", "TimeUsed", "TimeLeft", "SubmitTime",
    "StartTime", "STDOUT", "WorkDir"
  ]

  function Width(): string {
    NatToString(MaxChar)
  }

  function DefaultSqueueFormat(): Options {
    [("-O", "JobId,UserName,Name:" + Width() + ",STATE,ReasonList,TimeUsed")]
  }

  function DefaultSinfoFormat(): Options {
    [("-o", "%10P %5c %5a %10l %20G %4D %6t")]
  }

  /** Every detail field, each followed by `:` and the width, comma-separated. */
  function DefaultDetailFormat(): Options {
    [("-O", JoinWith(seq(|DetailFields|, i requires 0 <= i < |DetailFields| =>
                         DetailFields[i] + ":" + Width()), ','))]
  }

  /** The width is printed in decimal. */
  lemma WidthText()
    ensures Width() == "256"
  {
    assert NatToString(256) == "256";
  }

  /** The default job format asks for six columns, the job name 256 characters wide. */
  lemma DefaultSqueueFormatText()
    ensures DefaultSqueueFormat() == [("-O", "JobId,UserName,Name:256,STATE,ReasonList,TimeUsed")]
  {
    WidthText();
    assert "JobId,UserName,Name:" + "256" + ",STATE,ReasonList,TimeUsed"
           == "JobId,UserName,Name:256,STATE,ReasonList,TimeUsed";
  }

  /** The default detail format lists every detail field, in order, each 256 characters wide. */
  lemma DefaultDetailFields()
    ensures |SplitOn(DefaultDetailFormat()[0].1, ',')| == |DetailFields|
    ensures forall i :: 0 <= i < |DetailFields| ==>
              SplitOn(DefaultDetailFormat()[0].1, ',')[i] == DetailFields[i] + ":256"
  {
    var parts := seq(|DetailFields|, i requires 0 <= i < |DetailFields| => DetailFields[i] + ":" + Width());
    DetailPartsCommaFree(parts);
    SplitJoin(parts, ',');
  }

  lemma DetailPartsCommaFree(parts: seq<string>)
    requires parts == seq(|DetailFields|, i requires 0 <= i < |DetailFields| => DetailFields[i] + ":" + Width())
    ensures forall i :: 0 <= i < |parts| ==> ',' !in parts[i] && parts[i] == DetailFields[i] + ":256"
  {
    WidthText();
    FieldsCommaFree();
    forall i | 0 <= i < |parts| ensures ',' !in parts[i] && parts[i] == DetailFields[i] + ":256" {
      assert parts[i] == DetailFields[i] + ":256";
      assert ',' !in ":256";
    }
  }

  lemma FieldsCommaFree()
    ensures forall i :: 0 <= i < |DetailFields| ==> ',' !in DetailFields[i]
  {
  }

  // ---------------------------------------------------------------------------
  // Command construction (`Inspector.build_s_cmd`).
  // ---------------------------------------------------------------------------

  /** The argv tokens of option pairs: each flag followed by its argument, in order. */
  function OptionTokens(opts: seq<(string, string)>): (r: seq<string>)
    ensures |r| == 2 * |opts|
    ensures forall i :: 0 <= i < |opts| ==> r[2 * i] == opts[i].0 && r[2 * i + 1] == opts[i].1
  {
    if |opts| == 0 then [] else [opts[0].0, opts[0].1] + OptionTokens(opts[1..])
  }

  /**
   * `build_s_cmd(base, getopts, formopts)`: the base command, then every option
   * pair in insertion order, then the first format pair. An omitted dict
   * contributes nothing; an empty format dict has no first item.
   */
  function BuildCommand(base: string, getopts: Option<Options>, formopts: Option<Options>)
    : (r: Result<seq<string>, Error>)
    ensures r.Failure? <==> formopts == Some([])
    ensures r.Failure? ==> r.error == EmptyFormat
    ensures r.Success? ==>
              var g := if getopts.Some? then getopts.value else [];
              && |r.value| == 1 + 2 * |g| + (if formopts.Some? then 2 else 0)
              && r.value[0] == base
              && (forall i :: 0 <= i < |g| ==>
                    r.value[1 + 2 * i] == g[i].0 && r.value[2 + 2 * i] == g[i].1)
              && (formopts.Some? ==>
                    r.value[|r.value| - 2..] == [formopts.value[0].0, formopts.value[0].1])
  {
    var opts := if getopts.Some? then OptionTokens(getopts.value) else [];
    match formopts
    case None => Success([base] + opts)
    case Some(f) =>
      if |f| == 0 then Failure(EmptyFormat)
      else Success([base] + opts + [f[0].0, f[0].1])
  }

  /** Reads argv tokens back as flag/argument pairs; an odd last token is dropped. */
  function OptionPairs(tokens: seq<string>): (r: seq<(string, string)>)
    ensures |r| == |tokens| / 2
    decreases |tokens|
  {
    if |tokens| < 2 then [] else [(tokens[0], tokens[1])] + OptionPairs(tokens[2..])
  }

  lemma {:induction false} OptionPairsOfTokens(opts: seq<(string, string)>, rest: seq<string>)
    ensures OptionPairs(OptionTokens(opts) + rest) == opts + OptionPairs(rest)
    decreases |opts|
  {
    if |opts| > 0 {
      var t := OptionTokens(opts) + rest;
      assert t == [opts[0].0, opts[0].1] + (OptionTokens(opts[1..]) + rest);
      assert t[2..] == OptionTokens(opts[1..]) + rest;
      OptionPairsOfTokens(opts[1..], rest);
      assert OptionPairs(t) == [(opts[0].0, opts[0].1)] + OptionPairs(t[2..]);
      assert opts == [opts[0]] + opts[1..];
    } else {
      assert OptionTokens(opts) + rest == rest;
    }
  }

  /**
   * The argv after the base command reads back, pair by pair, as the options
   * in order followed by the format pair: building a command loses nothing.
   */
  lemma CommandRoundTrip(base: string, getopts: Option<Options>, formopts: Option<Options>)
    requires formopts != Some([])
    ensures BuildCommand(base, getopts, formopts).Success?
    ensures OptionPairs(BuildCommand(base, getopts, formopts).value[1..])
            == (if getopts.Some? then getopts.value else [])
               + (if formopts.Some? then [formopts.value[0]] else [])
  {
    var g := if getopts.Some? then getopts.value else [];
    var tail: seq<string> := if formopts.Some? then [formopts.value[0].0, formopts.value[0].1] else [];
    assert BuildCommand(base, getopts, formopts).value[1..] == OptionTokens(g) + tail by {
      assert BuildCommand(base, getopts, formopts).value == [base] + (OptionTokens(g) + tail);
    }
    OptionPairsOfTokens(g, tail);
    assert OptionPairs(tail) == (if formopts.Some? then [formopts.value[0]] else []) by {
      if formopts.Some? {
        assert tail[2..] == [];
      }
    }
  }

  // ---------------------------------------------------------------------------
  // Output parsing (`parse_squeue_output`, `parse_sinfo_output`).
  // ---------------------------------------------------------------------------

  /** `output.split("\n")[:-1]`: the lines, without the piece after the last newline. */
  function OutputLines(output: string): (lines: seq<string>)
    ensures |lines| == Count(output, '\n')
    ensures forall i :: 0 <= i < |lines| ==> '\n' !in lines[i]
    ensures exists rest :: '\n' !in rest && JoinWith(lines + [rest], '\n') == output
  {
    var pieces := SplitOn(output, '\n');
    assert pieces[..|pieces| - 1] + [pieces[|pieces| - 1]] == pieces;
    pieces[..|pieces| - 1]
  }

  /** The lines of newline-free lines joined by newlines, then any unterminated tail, are those lines. */
  lemma OutputLinesOfJoin(lines: seq<string>, rest: string)
    requires forall i :: 0 <= i < |lines| ==> '\n' !in lines[i]
    requires '\n' !in rest
    ensures OutputLines(JoinWith(lines + [rest], '\n')) == lines
  {
    SplitJoin(lines + [rest], '\n');
    assert (lines + [rest])[..|lines|] == lines;
  }

  /**
   * The shared body of both parsers: the first line's tokens are the header,
   * and every later line, blank ones included, becomes one record pairing
   * header and tokens by position as far as the shorter of the two goes.
   */
  function ParseTable(output: string): (r: Result<Table, Error>)
    ensures r.Failure? <==> Count(output, '\n') == 0
    ensures r.Failure? ==> r.error == NoHeaderLine
    ensures r.Success? ==> |r.value.rows| == Count(output, '\n') - 1
    ensures r.Success? ==> forall i, k :: 0 <= i < |r.value.rows| && HasKey(r.value.rows[i], k) ==>
              k in r.value.header
    ensures r.Success? ==> forall i :: 0 <= i < |r.value.header| ==> IsWord(r.value.header[i])
    ensures r.Success? ==> r.value.header == Tokens(OutputLines(output)[0])
    ensures r.Success? ==> forall i :: 0 <= i < |r.value.rows| ==>
              r.value.rows[i] == Zip(r.value.header, Tokens(OutputLines(output)[i + 1]))
  {
    var lines := OutputLines(output);
    if |lines| == 0 then Failure(NoHeaderLine) else Success(TableOf(lines))
  }

  function TableOf(lines: seq<string>): (t: Table)
    requires |lines| > 0
    ensures t.header == Tokens(lines[0])
    ensures |t.rows| == |lines| - 1
    ensures forall i :: 0 <= i < |t.rows| ==> t.rows[i] == Zip(t.header, Tokens(lines[i + 1]))
    ensures forall i, k :: 0 <= i < |t.rows| && HasKey(t.rows[i], k) ==> k in t.header
  {
    var header := Tokens(lines[0]);
    Table(ZipLines(header, lines[1..]), header)
  }

  function ZipLines(header: seq<string>, lines: seq<string>): (rows: seq<Record>)
    ensures |rows| == |lines|
    ensures forall i :: 0 <= i < |lines| ==> rows[i] == Zip(header, Tokens(lines[i]))
    ensures forall i, k :: 0 <= i < |rows| && HasKey(rows[i], k) ==> k in header
  {
    seq(|lines|, i requires 0 <= i < |lines| => Zip(header, Tokens(lines[i])))
  }

  /** `parse_squeue_output`: the parsed rows wrapped as jobs, and the header. */
  function ParseSqueue(output: string): (r: Result<(seq<Job>, seq<string>), Error>)
    ensures r.Failure? <==> ParseTable(output).Failure?
    ensures r.Success? ==>
              && r.value.1 == ParseTable(output).value.header
              && |r.value.0| == |ParseTable(output).value.rows|
              && forall i :: 0 <= i < |r.value.0| ==> r.value.0[i].attrs == ParseTable(output).value.rows[i]
  {
    var t :- ParseTable(output);
    Success((seq(|t.rows|, i requires 0 <= i < |t.rows| => Job(t.rows[i])), t.header))
  }

  /** `parse_sinfo_output`: the same header and row maps as `ParseSqueue`, unwrapped. */
  function ParseSinfo(output: string): (r: Result<(seq<Record>, seq<string>), Error>)
    ensures r.Failure? <==> ParseSqueue(output).Failure?
    ensures r.Success? ==>
              && r.value.1 == ParseSqueue(output).value.1
              && |r.value.0| == |ParseSqueue(output).value.0|
              && forall i :: 0 <= i < |r.value.0| ==> r.value.0[i] == ParseSqueue(output).value.0[i].attrs
  {
    var t :- ParseTable(output);
    Success((t.rows, t.header))
  }

  /** The lines of rendered output: the header, then each row, tokens separated by one space. */
  function RenderedLines(header: seq<string>, rows: seq<seq<string>>): seq<string> {
    [JoinWith(header, ' ')] + seq(|rows|, i requires 0 <= i < |rows| => JoinWith(rows[i], ' '))
  }

  /**
   * Output laid out with single spaces: a header line and row lines, each
   * ending in a newline. `ParsePadded` covers column-padded output.
   */
  function Render(header: seq<string>, rows: seq<seq<string>>): string {
    JoinWith(RenderedLines(header, rows), '\n') + "\n"
  }

  lemma {:induction false} JoinWithEmptyLast(parts: seq<string>, sep: char)
    requires |parts| >= 1
    ensures JoinWith(parts + [""], sep) == JoinWith(parts, sep) + [sep]
    decreases |parts|
  {
    if |parts| == 1 {
      assert parts + [""] == [parts[0], ""];
    } else {
      assert (parts + [""])[1..] == parts[1..] + [""];
      JoinWithEmptyLast(parts[1..], sep);
    }
  }

  lemma {:induction false} NoNewlineInSpaced(ws: seq<string>)
    requires forall i :: 0 <= i < |ws| ==> IsWord(ws[i])
    ensures '\n' !in JoinWith(ws, ' ')
    decreases |ws|
  {
    if |ws| > 0 {
      assert IsSpace('\n');
      assert '\n' !in ws[0];
      if |ws| > 1 {
        NoNewlineInSpaced(ws[1..]);
      }
    }
  }

  /** Rendered output splits back into exactly its lines. */
  lemma OutputLinesOfRender(header: seq<string>, rows: seq<seq<string>>)
    requires forall i :: 0 <= i < |header| ==> IsWord(header[i])
    requires forall i, j :: 0 <= i < |rows| && 0 <= j < |rows[i]| ==> IsWord(rows[i][j])
    ensures OutputLines(Render(header, rows)) == RenderedLines(header, rows)
  {
    var lines := RenderedLines(header, rows);
    JoinWithEmptyLast(lines, '\n');
    forall i | 0 <= i < |lines + [""]| ensures '\n' !in (lines + [""])[i] {
      if i == 0 {
        NoNewlineInSpaced(header);
      } else if i < |lines| {
        NoNewlineInSpaced(rows[i - 1]);
      }
    }
    SplitJoin(lines + [""], '\n');
    assert SplitOn(Render(header, rows), '\n') == lines + [""];
  }

  /** The lines of rendered output tokenise to the header and the rows. */
  lemma RenderedTokens(header: seq<string>, rows: seq<seq<string>>)
    requires forall i :: 0 <= i < |header| ==> IsWord(header[i])
    requires forall i, j :: 0 <= i < |rows| && 0 <= j < |rows[i]| ==> IsWord(rows[i][j])
    ensures var lines := RenderedLines(header, rows);
            && Tokens(lines[0]) == header
            && forall i :: 0 <= i < |rows| ==> Tokens(lines[i + 1]) == rows[i]
  {
    var lines := RenderedLines(header, rows);
    TokensOfSpaced(header);
    forall i | 0 <= i < |rows| ensures Tokens(lines[i + 1]) == rows[i] {
      assert lines[i + 1] == JoinWith(rows[i], ' ');
      TokensOfSpaced(rows[i]);
    }
  }

  /**
   * Parsing rendered output gives back the header and, for each row, the
   * positional pairing of header and row tokens.
   */
  lemma ParseRender(header: seq<string>, rows: seq<seq<string>>)
    requires forall i :: 0 <= i < |header| ==> IsWord(header[i])
    requires forall i, j :: 0 <= i < |rows| && 0 <= j < |rows[i]| ==> IsWord(rows[i][j])
    ensures ParseTable(Render(header, rows))
            == Success(Table(seq(|rows|, i requires 0 <= i < |rows| => Zip(header, rows[i])), header))
  {
    var lines := RenderedLines(header, rows);
    OutputLinesOfRender(header, rows);
    RenderedTokens(header, rows);
    TableOfTokens(lines, header, rows);
  }

  /**
   * Parsing output whose lines lay the words out with any whitespace other
   * than newlines between and around them, as the column-padded output of
   * `squeue -O` and `sinfo -o` does: the header is the first line's words and
   * each record pairs it with one later line's words by position.
   */
  lemma ParsePadded(lines: seq<string>, header: seq<string>, rows: seq<seq<string>>)
    requires |lines| == |rows| + 1
    requires forall i :: 0 <= i < |lines| ==> '\n' !in lines[i]
    requires WordsOf(lines[0], header)
    requires forall i :: 0 <= i < |rows| ==> WordsOf(lines[i + 1], rows[i])
    ensures ParseTable(JoinWith(lines, '\n') + "\n")
            == Success(Table(seq(|rows|, i requires 0 <= i < |rows| => Zip(header, rows[i])), header))
  {
    var out := JoinWith(lines, '\n') + "\n";
    assert OutputLines(out) == lines by {
      JoinWithEmptyLast(lines, '\n');
      OutputLinesOfJoin(lines, "");
    }
    TokensIff(lines[0], header);
    forall i | 0 <= i < |rows| ensures Tokens(lines[i + 1]) == rows[i] {
      TokensIff(lines[i + 1], rows[i]);
    }
    TableOfTokens(lines, header, rows);
  }

  /** Lines whose tokens are known make the table of those tokens. */
  lemma TableOfTokens(lines: seq<string>, header: seq<string>, rows: seq<seq<string>>)
    requires |lines| == |rows| + 1
    requires Tokens(lines[0]) == header
    requires forall i :: 0 <= i < |rows| ==> Tokens(lines[i + 1]) == rows[i]
    ensures TableOf(lines) == Table(seq(|rows|, i requires 0 <= i < |rows| => Zip(header, rows[i])), header)
  {
    var t := TableOf(lines);
    var zipped := seq(|rows|, i requires 0 <= i < |rows| => Zip(header, rows[i]));
    assert |t.rows| == |zipped|;
    forall i | 0 <= i < |rows| ensures t.rows[i] == zipped[i] {
      assert t.rows[i] == Zip(header, Tokens(lines[i + 1]));
    }
    assert t.rows == zipped;
  }

  /**
   * The round trip for well-formed output: with distinct header tokens and rows
   * of exactly as many tokens, each record has exactly the header's keys, in
   * order, bound to the row's tokens by position.
   */
  lemma ParseRoundTrip(header: seq<string>, rows: seq<seq<string>>)
    requires Distinct(header)
    requires forall i :: 0 <= i < |header| ==> IsWord(header[i])
    requires forall i :: 0 <= i < |rows| ==> |rows[i]| == |header|
    requires forall i, j :: 0 <= i < |rows| && 0 <= j < |rows[i]| ==> IsWord(rows[i][j])
    ensures ParseTable(Render(header, rows)).Success?
    ensures ParseTable(Render(header, rows)).value.header == header
    ensures |ParseTable(Render(header, rows)).value.rows| == |rows|
    ensures forall i :: 0 <= i < |rows| ==> Keys(ParseTable(Render(header, rows)).value.rows[i]) == header
    ensures forall i, j :: 0 <= i < |rows| && 0 <= j < |header| ==>
              Get(ParseTable(Render(header, rows)).value.rows[i], header[j]) == Some(rows[i][j])
  {
    ParseRender(header, rows);
    var t := ParseTable(Render(header, rows)).value;
    assert header[..|header|] == header;
    forall i | 0 <= i < |rows| ensures Keys(t.rows[i]) == header {
      ZipKeys(header, rows[i]);
    }
    forall i, j | 0 <= i < |rows| && 0 <= j < |header|
      ensures Get(t.rows[i], header[j]) == Some(rows[i][j])
    {
      assert header[j] !in header[j + 1..];
      ZipGet(header, rows[i], j);
    }
  }

  // ---------------------------------------------------------------------------
  // Filter toggles (`toggle_user_filter`, `toggle_running_filter`).
  // ---------------------------------------------------------------------------

  /** A presence test on the flag: insert `flag value` when absent, delete the flag when present. */
  function Toggle(opts: Options, flag: string, value: string): (r: Options)
    ensures HasKey(r, flag) <==> !HasKey(opts, flag)
    ensures !HasKey(opts, flag) ==> r == opts + [(flag, value)]
    ensures HasKey(opts, flag) ==> |r| == |opts| - 1
    ensures HasKey(opts, flag) ==> Keys(r) == Keys(opts)[..IndexOf(opts, flag)] + Keys(opts)[IndexOf(opts, flag) + 1..]
    ensures forall k :: k != flag ==> Get(r, k) == Get(opts, k)
  {
    if HasKey(opts, flag) then Delete(opts, flag) else Set(opts, flag, value)
  }

  /** Toggling twice from an absent flag restores the options exactly. */
  lemma ToggleTwiceFromAbsent(opts: Options, flag: string, value: string)
    requires !HasKey(opts, flag)
    ensures Toggle(Toggle(opts, flag, value), flag, value) == opts
  {
    DeleteUndoesAdd(opts, flag, value);
  }

  /**
   * Toggling twice from a present flag keeps every other entry in order but
   * moves the flag to the end, bound to the toggle's value.
   */
  lemma ToggleTwiceFromPresent(opts: Options, flag: string, value: string)
    requires HasKey(opts, flag)
    ensures Toggle(Toggle(opts, flag, value), flag, value) == Delete(opts, flag) + [(flag, value)]
  {
  }

  // ---------------------------------------------------------------------------
  // The Inspector.
  // ---------------------------------------------------------------------------

  /** The Inspector's data: query options, formats, and the last parsed snapshots. */
  datatype Inspector = Inspector(
    squeueGetopts: Options,
    squeueFormopts: Options,
    sinfoGetopts: Options,
    sinfoFormopts: Options,
    detailFormopts: Options,
    user: string,
    jobs: seq<Job>,
    squeueHeader: seq<string>,
    sinfo: seq<Record>,
    sinfoHeader: seq<string>)

  /** Each format dict holds exactly one pair. */
  ghost predicate FormatsValid(insp: Inspector) {
    |insp.squeueFormopts| == 1 && |insp.sinfoFormopts| == 1 && |insp.detailFormopts| == 1
  }

  /** The constructor's optional arguments; `None` stands for an omitted one. */
  datatype Config = Config(
    squeueGetopts: Option<Options>,
    squeueFormopts: Option<Options>,
    sinfoGetopts: Option<Options>,
    sinfoFormopts: Option<Options>,
    detailFormopts: Option<Options>)

  function OrEmpty(o: Option<Options>): Options {
    if o.Some? then o.value else []
  }

  function OrDefault(o: Option<Options>, default: Options): Options {
    if o.Some? then o.value else default
  }

  ghost predicate SuppliedSizeOk(o: Option<Options>) {
    o.Some? ==> |o.value| == 1
  }

  /** The first format check that fails, in the order the constructor makes them. */
  function FirstBadFormat(cfg: Config): (r: Option<FormatKind>)
    ensures r.None? <==> SuppliedSizeOk(cfg.squeueFormopts) && SuppliedSizeOk(cfg.sinfoFormopts)
                         && SuppliedSizeOk(cfg.detailFormopts)
    ensures r == Some(SqueueFormat) ==> !SuppliedSizeOk(cfg.squeueFormopts)
    ensures r == Some(SinfoFormat) ==> SuppliedSizeOk(cfg.squeueFormopts) && !SuppliedSizeOk(cfg.sinfoFormopts)
    ensures r == Some(DetailFormat) ==>
              SuppliedSizeOk(cfg.squeueFormopts) && SuppliedSizeOk(cfg.sinfoFormopts) && !SuppliedSizeOk(cfg.detailFormopts)
  {
    if cfg.squeueFormopts.Some? && |cfg.squeueFormopts.value| != 1 then Some(SqueueFormat)
    else if cfg.sinfoFormopts.Some? && |cfg.sinfoFormopts.value| != 1 then Some(SinfoFormat)
    else if cfg.detailFormopts.Some? && |cfg.detailFormopts.value| != 1 then Some(DetailFormat)
    else None
  }

  /** The argv of `get_info`. */
  function InfoCommand(insp: Inspector): (argv: seq<string>)
    requires FormatsValid(insp)
    ensures argv == ["sinfo"] + OptionTokens(insp.sinfoGetopts)
                    + [insp.sinfoFormopts[0].0, insp.sinfoFormopts[0].1]
  {
    BuildCommand("sinfo", Some(insp.sinfoGetopts), Some(insp.sinfoFormopts)).value
  }

  /** The argv of `get_jobs`. */
  function JobsCommand(insp: Inspector): (argv: seq<string>)
    requires FormatsValid(insp)
    ensures argv == ["squeue"] + OptionTokens(insp.squeueGetopts)
                    + [insp.squeueFormopts[0].0, insp.squeueFormopts[0].1]
  {
    BuildCommand("squeue", Some(insp.squeueGetopts), Some(insp.squeueFormopts)).value
  }

  /** `get_info`: replace the sinfo snapshot by the parse of `output`, or fail leaving nothing changed. */
  function RefreshInfo(insp: Inspector, output: string): (r: Result<Inspector, Error>)
    ensures r.Success? <==> Count(output, '\n') > 0
    ensures r.Success? ==>
              && r.value == insp.(sinfo := r.value.sinfo, sinfoHeader := r.value.sinfoHeader)
              && ParseSinfo(output) == Success((r.value.sinfo, r.value.sinfoHeader))
  {
    var (rows, header) :- ParseSinfo(output);
    Success(insp.(sinfo := rows, sinfoHeader := header))
  }

  /** `get_jobs`: replace the job snapshot by the parse of `output`, or fail leaving nothing changed. */
  function RefreshJobs(insp: Inspector, output: string): (r: Result<Inspector, Error>)
    ensures r.Success? <==> Count(output, '\n') > 0
    ensures r.Success? ==>
              && r.value == insp.(jobs := r.value.jobs, squeueHeader := r.value.squeueHeader)
              && ParseSqueue(output) == Success((r.value.jobs, r.value.squeueHeader))
  {
    var (jobs, header) :- ParseSqueue(output);
    Success(insp.(jobs := jobs, squeueHeader := header))
  }

  /**
   * The constructor as written. A supplied detail format of size one passes its
   * check, but the following statement only reads `self.detail_formopts`, which
   * was never assigned, so construction stops there.
   */
  function NewInspectorAsWritten(cfg: Config, user: string, sinfoOutput: string): (r: Result<Inspector, Error>)
    ensures cfg.detailFormopts.Some? ==> r.Failure?
    ensures cfg.detailFormopts.None? ==> r == NewInspector(cfg, user, sinfoOutput)
  {
    match FirstBadFormat(cfg)
    case Some(which) => Failure(FormatSize(which))
    case None =>
      if cfg.detailFormopts.Some? then Failure(DetailFormatUnset)
      else NewInspector(cfg, user, sinfoOutput)
  }

  /**
   * The constructor with a supplied detail format stored like the other two:
   * omitted options become empty, omitted formats take the defaults, a
   * supplied format of size other than one is rejected (squeue, then sinfo,
   * then detail), and the initial sinfo snapshot is parsed from `sinfoOutput`.
   */
  function NewInspector(cfg: Config, user: string, sinfoOutput: string): (r: Result<Inspector, Error>)
    ensures r.Success? <==> FirstBadFormat(cfg).None? && Count(sinfoOutput, '\n') > 0
    ensures FirstBadFormat(cfg).Some? ==> r == Failure(FormatSize(FirstBadFormat(cfg).value))
    ensures r.Success? ==>
              && FormatsValid(r.value)
              && r.value.squeueGetopts == OrEmpty(cfg.squeueGetopts)
              && r.value.sinfoGetopts == OrEmpty(cfg.sinfoGetopts)
              && r.value.squeueFormopts == OrDefault(cfg.squeueFormopts, DefaultSqueueFormat())
              && r.value.sinfoFormopts == OrDefault(cfg.sinfoFormopts, DefaultSinfoFormat())
              && r.value.detailFormopts == OrDefault(cfg.detailFormopts, DefaultDetailFormat())
              && r.value.user == user
              && r.value.jobs == [] && r.value.squeueHeader == []
              && ParseSinfo(sinfoOutput) == Success((r.value.sinfo, r.value.sinfoHeader))
  {
    match FirstBadFormat(cfg)
    case Some(which) => Failure(FormatSize(which))
    case None =>
      var insp := Inspector(
        OrEmpty(cfg.squeueGetopts),
        OrDefault(cfg.squeueFormopts, DefaultSqueueFormat()),
        OrEmpty(cfg.sinfoGetopts),
        OrDefault(cfg.sinfoFormopts, DefaultSinfoFormat()),
        OrDefault(cfg.detailFormopts, DefaultDetailFormat()),
        user, [], [], [], []);
      RefreshInfo(insp, sinfoOutput)
  }

  /**
   * Every supplied detail format is refused by the constructor as written, even
   * one the corrected constructor accepts.
   */
  lemma DetailFormatNeverAccepted(cfg: Config, user: string, sinfoOutput: string)
    requires FirstBadFormat(cfg).None? && cfg.detailFormopts.Some?
    requires Count(sinfoOutput, '\n') > 0
    ensures NewInspectorAsWritten(cfg, user, sinfoOutput) == Failure(DetailFormatUnset)
    ensures NewInspector(cfg, user, sinfoOutput).Success?
    ensures NewInspector(cfg, user, sinfoOutput).value.detailFormopts == cfg.detailFormopts.value
  {
  }

  /** `toggle_user_filter`: toggles `-u <user>` in the squeue options and nothing else. */
  function ToggleUserFilter(insp: Inspector): (r: Inspector)
    ensures r == insp.(squeueGetopts := r.squeueGetopts)
    ensures HasKey(r.squeueGetopts, "-u") <==> !HasKey(insp.squeueGetopts, "-u")
    ensures !HasKey(insp.squeueGetopts, "-u") ==> Get(r.squeueGetopts, "-u") == Some(insp.user)
    ensures !HasKey(insp.squeueGetopts, "-u") ==> r.squeueGetopts == insp.squeueGetopts + [("-u", insp.user)]
    ensures HasKey(insp.squeueGetopts, "-u") ==>
              var i := IndexOf(insp.squeueGetopts, "-u");
              Keys(r.squeueGetopts) == Keys(insp.squeueGetopts)[..i] + Keys(insp.squeueGetopts)[i + 1..]
    ensures forall k :: k != "-u" ==> Get(r.squeueGetopts, k) == Get(insp.squeueGetopts, k)
  {
    insp.(squeueGetopts := Toggle(insp.squeueGetopts, "-u", insp.user))
  }

  /** `toggle_running_filter`: toggles `--state RUNNING` in the squeue options and nothing else. */
  function ToggleRunningFilter(insp: Inspector): (r: Inspector)
    ensures r == insp.(squeueGetopts := r.squeueGetopts)
    ensures HasKey(r.squeueGetopts, "--state") <==> !HasKey(insp.squeueGetopts, "--state")
    ensures !HasKey(insp.squeueGetopts, "--state") ==> Get(r.squeueGetopts, "--state") == Some("RUNNING")
    ensures !HasKey(insp.squeueGetopts, "--state") ==> r.squeueGetopts == insp.squeueGetopts + [("--state", "RUNNING")]
    ensures HasKey(insp.squeueGetopts, "--state") ==>
              var i := IndexOf(insp.squeueGetopts, "--state");
              Keys(r.squeueGetopts) == Keys(insp.squeueGetopts)[..i] + Keys(insp.squeueGetopts)[i + 1..]
    ensures forall k :: k != "--state" ==> Get(r.squeueGetopts, k) == Get(insp.squeueGetopts, k)
  {
    insp.(squeueGetopts := Toggle(insp.squeueGetopts, "--state", "RUNNING"))
  }

  // ---------------------------------------------------------------------------
  // Job details and cancellation.
  // ---------------------------------------------------------------------------

  /** The argv of `get_job_details`: the job id option, then the detail format. */
  function DetailCommand(insp: Inspector, jobId: string): (argv: seq<string>)
    requires FormatsValid(insp)
    ensures argv == ["squeue", "-j", jobId, insp.detailFormopts[0].0, insp.detailFormopts[0].1]
  {
    BuildCommand("squeue", Some([("-j", jobId)]), Some(insp.detailFormopts)).value
  }

  /**
   * `get_job_details` given the detail command's output: the first parsed row,
   * failing when the output has no header line or no row.
   */
  function JobDetails(output: string): (r: Result<Job, Error>)
    ensures Count(output, '\n') == 0 ==> r == Failure(NoHeaderLine)
    ensures Count(output, '\n') == 1 ==> r == Failure(NoDetailRows)
    ensures r.Success? <==> Count(output, '\n') >= 2
    ensures r.Success? ==> r.value == ParseSqueue(output).value.0[0]
  {
    var (rows, _) :- ParseSqueue(output);
    if |rows| == 0 then Failure(NoDetailRows) else Success(rows[0])
  }

  /** The argv of `cancel_job`: `scancel` with the id as its only argument. */
  function CancelCommand(jobId: string): (argv: seq<string>)
    ensures |argv| == 2 && argv[0] == "scancel" && argv[1] == jobId
  {
    ["scancel", jobId]
  }

  /** A cancel succeeded iff `scancel` wrote nothing to stderr, whatever its exit status. */
  predicate CancelSucceeded(stderr: string)
    ensures CancelSucceeded(stderr) <==> stderr == []
  {
    |stderr| == 0
  }
}

=== FILE: wrappers.dfy ===
/** Failure-carrying datatypes used in place of Python's `None` and its exceptions. */
module Wrappers {

  datatype Option<+T> = None | Some(value: T)

  /** Either a value or the error the Python code would have raised. */
  datatype Result<+T, +E> = Success(value: T) | Failure(error: E) {

    predicate IsFailure() {
      Failure?
    }

    function PropagateFailure<U>(): Result<U, E>
      requires Failure?
    {
      Failure(error)
    }

    function Extract(): T
      requires Success?
    {
      value
    }
  }
}
